=== FILE: README.md ===
# muslimkit core in Dafny

This is a model of three parts of muslimkit, a terminal client for Indonesian prayer times:

- **The hand-written HTTP/1.1 client** (`src/network/connection.c`). It renders the GET request and gathers the TLS reads into a growing buffer. It then splits the raw response into header and body, reads the status code, and undoes the chunked transfer coding (section 7.1 of RFC 9112).
- **The list-view logic of the terminal UI** (`src/presentation/uikit.c`): the vim-style and the default navigation handlers, the text-entry step, fuzzy scoring, the ranking of the list by score, and the viewport offset that keeps the selection visible.
- **The request half of `get_prayer_times`** (`src/domain/get_prayer_times.c`): the argument check, the 14-byte path buffer, the endpoint, and the call to `get`.

The model follows the C code.

- **C strings** are `string` values, one `char` per C `char`. `CStrings.CStr` is the `strlen` view of a buffer. A NULL pointer is `None`.
- **The socket and the TLS session** are replaced by a `HttpClient.Connection` value. It says whether the connection comes up, what `SSL_write` returns, and which positive `SSL_read` results arrive.
- **The clock and the JSON parser** enter as parameters: the current year and month, and whether the body parses.

The modules are:

- `CStrings`: `strlen`, `strstr`, `strchr`, `strtol`, `atoi`, `"%d"` and `snprintf` truncation. It also holds the digit writer that reads back through them.
- `Chunked`: the decoder loop of `http_response_extract_body`, stated over the text left at its pointer. It comes with the server-side framing as its inverse.
- `HttpFraming`: the header, body and status extractors, and `struct http_response`.
- `HttpClient`: the request, the read loop with its growth policy, and `get`.
- `UiKit`: `vim_motion`, `default_motion`, `inputtext_handler` and the offset part of `scrollbar`.
- `Fuzzy`: `fuzzy_score`, `compare_score_desc` and `list_filter`, with a subsequence-embedding reference for the scorer and a sortedness-and-permutation reference for the ranking.
- `PrayerTimes`: the path, the endpoint and the request side of `get_prayer_times`.

Some consequences of the code as written are stated as lemmas.

- **Chunk detection scans the whole response.** The marker `Transfer-Encoding: chunked` is looked for in the whole response, not only the header. A plain body is then run through the chunked decoder; one that consists of the marker text alone decodes to the empty string (`HttpFraming.MarkerInBodyEmptiesIt`).
- **The status code is stored in a `uint8_t`.** A 404 is stored as 148, and -1 as 255 (`HttpFraming.StoredStatus`).
- **Short terminals break paging.** A terminal under ten lines makes the page size negative, and paging up then moves forward and can leave the list (`UiKit.NegativePageLeavesList`).
- **Folding is not case-insensitive.** `fuzzy_score` adds 32 to every item character from `'A'` to `'z'`, lower-case letters included. An all-lower-case item matches no pattern that starts with an ASCII character (`Fuzzy.LowercaseItemNeverMatches`).
- **The endpoint keeps its template.** It carries the literal `/sholat/jadwal/:kota/:tahun/:bulan` followed by the path (`PrayerTimes.EndpointFor`).

Some of what the code does differs from what its own comments say, and the model follows the code. The comment at include/network/connection.h:125-138 places the status on the first line of the header. The comment at src/domain/get_prayer_times.c:164 sizes the path for `/idid/yyyy/mm`. The consequences:

- **A malformed status line is not an error.** A header with fewer than two spaces gives -1, and the response is still returned. The two spaces are looked for across the whole header, not only its first line.
- **Extraction fails only when both parts are missing.** Once the connection is up and the request is written in full, `get` fails only when both header and body are NULL, which happens when nothing was read or there is no separator.
- **A bad chunk size ends the body silently.** A malformed or non-positive chunk size ends the body without an error.
- **The path buffer stays at 14 bytes.** The path is cut to 13 characters.

## Model

| member | source | states |
|---|---|---|
| CStrings.CStr | src/network/connection.c:349-357 | the text a NUL-terminated buffer denotes: the longest NUL-free prefix, ended by a NUL or the end of the buffer |
| CStrings.CStrBeforeTerminator | src/network/connection.c:349-351 | writing a NUL at `total` ends the C string no later than `total` |
| CStrings.CStrOfPlainText | src/network/connection.c:206-208 | text without a NUL is its own C string |
| CStrings.Find | src/network/connection.c:142 | `strstr`: a position exactly when the pattern occurs, and then the first one |
| CStrings.FindIsFirst | src/network/connection.c:142 | `strstr` returns an occurrence with none before it |
| CStrings.FindCharFirst | src/network/connection.c:168-178 | `strchr` returns the first occurrence from where the search starts |
| CStrings.FindCharAt | src/network/connection.c:228 | an occurrence with no earlier one is what `strchr` finds |
| CStrings.Digits | src/domain/get_prayer_times.c:166 | decimal and hexadecimal numerals have at least one digit, exactly one below the base |
| CStrings.DigitsRoundTrip | src/network/connection.c:224 | reading a numeral back gives the number it writes |
| CStrings.HexReadsBack | src/network/connection.c:224-226 | `strtol` in base 16 reads a written positive size back when a non-digit follows it |
| CStrings.AtoIOfDigits | src/network/connection.c:188 | `atoi` of plain decimal digits is their value |
| CStrings.IntToDec | src/domain/get_prayer_times.c:166 | `%d` of a non-negative int reads back through `atoi`, and a negative one starts with a minus sign |
| CStrings.FindChar | src/network/connection.c:168-174 | `strchr`: a reported position holds the character and lies at or after the start of the search |
| CStrings.StrToL | src/network/connection.c:224 | `strtol`: 0 at the end of the text or when the text starts with neither white space, a sign nor a digit of the base; never negative without a minus sign |
| CStrings.AtoI | src/network/connection.c:188 | `atoi`: 0 for the empty text or one starting with neither white space, a sign nor a digit; never negative without a minus sign |
| CStrings.Truncate | src/domain/get_prayer_times.c:165-166 | `snprintf` into `size` bytes keeps a prefix of at most `size - 1` characters, the whole text exactly when it is shorter than `size`, and exactly `size - 1` characters when it is cut |
| CStrings.FieldsAtFirst | src/network/connection.c:168-178 | the first separator ends the first field, and the rest splits on its own |
| Chunked.SkipLineBreaks | src/network/connection.c:220-221 | the skip stops inside the text, at a byte that is neither CR nor LF or at the end |
| Chunked.SizeLineFrom | src/network/connection.c:220-231 | a chunk read from a position has a positive size and a payload that starts after that position, inside the text |
| Chunked.AfterPayload | src/network/connection.c:237-238 | the text after a payload loses nothing but an optional leading CR LF, and loses it when it is there |
| Chunked.SkippedAreLineBreaks | src/network/connection.c:220-221 | everything the loop skips before a size line is CR or LF |
| Chunked.SizeLineAfterBreaks | src/network/connection.c:220-226 | the size is parsed where line-break skipping stops |
| Chunked.ReadSizeLine | src/network/connection.c:219-231 | a chunk found by one pass has a positive size, and its payload starts inside the text |
| Chunked.Decode | src/network/connection.c:211-240 | the decoded body never outgrows the raw body, so the `strlen(body) + 1` output buffer holds it |
| Chunked.DecodeFramed | src/network/connection.c:219-239 | framed non-empty chunks decode to their payloads in order, and decoding then continues with what follows them |
| Chunked.LastChunkStops | src/network/connection.c:224-226 | the zero-size last chunk ends decoding |
| Chunked.DecodeEncode | src/network/connection.c:219-240 | round trip: a chunk-framed body ended by the last chunk decodes to the concatenated chunks, whatever trailer follows, and every size fits |
| Chunked.DecodeStopsKeepingOutput | src/network/connection.c:219-231 | at the end of the text, at a non-positive or unparsable size, or at a size line with no LF, the loop stops and the output so far is the body |
| Chunked.DecodeOneChunk | src/network/connection.c:219-240 | `5\r\nHello\r\n0\r\n\r\n` decodes to `Hello` |
| Chunked.DecodeTwoChunks | src/network/connection.c:219-240 | `3\r\nfoo\r\n3\r\nbar\r\n0\r\n\r\n` decodes to `foobar` |
| HttpFraming.ExtractHeader | src/network/connection.c:136-160 | NULL for NULL; a header exactly when the separator occurs; the header is the prefix before the first separator |
| HttpFraming.HeaderOfMessage | src/network/connection.c:142-159 | header `h` followed by the separator is cut back out if and only if no separator starts inside `h` |
| HttpFraming.Prefix3 | src/network/connection.c:180-186 | the status token is cut to its first three characters |
| HttpFraming.StatusCode | src/network/connection.c:162-166 | a NULL header gives -1 |
| HttpFraming.StatusCodeIsSecondField | src/network/connection.c:162-189 | with fewer than two spaces the code is -1, otherwise `atoi` of the first three characters of the second space-separated field |
| HttpFraming.StatusCodeOfStatusLine | src/network/connection.c:162-189 | a status line `version SP code SP reason` with a space-free version and a three-digit code yields that code |
| HttpFraming.StatusCodeOk | src/network/connection.c:162-189 | `HTTP/1.1 200 OK` gives 200 |
| HttpFraming.StatusCodeNotFound | src/network/connection.c:162-189 | `HTTP/1.1 404 Not Found` gives 404 |
| HttpFraming.StoredStatus | include/network/connection.h:38-42 | the int code stored in the `uint8_t` field equals it modulo 256, and is kept when it is in 0..255 |
| HttpFraming.StoredStatusExamples | src/network/connection.c:251 | 200 is stored as 200, 404 as 148 and -1 as 255 |
| HttpFraming.ExtractBody | src/network/connection.c:191-242 | NULL exactly for NULL input or a missing separator; without the marker, the input is header, separator and body; with it, the body is no longer than the text after the separator |
| HttpFraming.Extract | src/network/connection.c:244-254 | header and body are NULL together, and then the stored status is 255 |
| HttpFraming.PlainBody | src/network/connection.c:206-208 | a response without the marker has exactly the text after its header as its body |
| HttpFraming.ChunkedBody | src/network/connection.c:206-240 | a response announcing the chunked coding, with a chunk-framed body, has the concatenated chunks as its body |
| HttpFraming.MarkerInBodyEmptiesIt | src/network/connection.c:206-226 | a plain body consisting of the marker text is chunk-decoded to the empty string |
| HttpFraming.NoSeparatorNoResponse | src/network/connection.c:142-146 | without a separator there is neither header nor body, and the stored status is 255 |
| HttpClient.RenderRequest | src/network/connection.c:288-307 | the request is `GET `, the path, and request line and header bytes that add 44 characters to path and host |
| HttpClient.ParseRequest | src/network/connection.c:303-307 | a request laid out as rendered splits back into a space-free path and a host whose lengths add up |
| HttpClient.RequestRoundTrip | src/network/connection.c:288-307 | a space-free path and any host are recovered from the rendered request |
| HttpClient.RequestFitsItsBuffer | src/network/connection.c:288-307 | the counted length plus one byte holds the whole request, so nothing is cut |
| HttpClient.NextCapacity | src/network/connection.c:327-331 | the next capacity exceeds both the old capacity and the bytes after the copy; it is 4096 or double the old capacity unless that is too small, then one past the bytes |
| HttpClient.Realloc | src/network/connection.c:333 | the grown block has the asked size and starts with the old block |
| HttpClient.Accumulate | src/network/connection.c:320-357 | no read leaves the buffer NULL; otherwise it holds all reads in order, is NUL-terminated at their total length, has the capacity the growth policy gives, and read as a C string it is the C string of the reads' concatenation, which is what the extractor is handed |
| HttpClient.CapacityAfter | src/network/connection.c:326-347 | the capacity is 0 before the first read and afterwards always larger than the bytes held |
| HttpClient.CapacityGrows | src/network/connection.c:326-347 | every read makes the buffer strictly larger |
| HttpClient.Get | src/network/connection.c:266-368 | -1 exactly when the connection fails, the write is short, nothing is read, or there is no separator; `*dest` is written exactly on 0 and holds the extracted response; the request sent is the rendered one |
| UiKit.PageBack | src/presentation/uikit.c:64-70 | page up moves back by the page size, and lands on index 0 when that would pass the top |
| UiKit.PageOn | src/presentation/uikit.c:71-78 | page down moves on by the page size, and lands on `count - 1` when that would pass the end |
| UiKit.VimChar | src/presentation/uikit.c:79-116 | in NORMAL, `k` and `j` move the selection up and down by one clamped to the list, `g` goes to the first item and `G` to the last; outside NORMAL a character changes nothing; the index stays in range; 2 exactly for `/` or `i` in NORMAL, -1 exactly for `q` in NORMAL, and the mode changes only on a 2 |
| UiKit.VimMotion | src/presentation/uikit.c:46-121 | in NORMAL, Ctrl-U and Ctrl-D move the selection back and on by a page clamped to the list, and `k`, `j`, `g`, `G` move as in VimChar; NULL pointers give -1 and change nothing; the index stays in range; outside NORMAL nothing moves; ESC returns to NORMAL; 1 exactly for Enter; 2 exactly for `/` or `i` in NORMAL, which sets SEARCH or INSERT; -1 exactly for `q` in NORMAL |
| UiKit.DefaultMotion | src/presentation/uikit.c:138-190 | the up arrow and wheel and the down arrow and wheel move the selection by one clamped to the list, PgUp and PgDn by a page clamped to the list, Home to the first item and End to the last; a NULL index gives -1; the index stays in range; 1 exactly for Enter or a left click; -1 exactly for ESC; a non-zero result or a non-key, non-mouse event leaves the index alone |
| UiKit.Clamp | src/presentation/uikit.c:397-405 | reference clamp into a range, used for the scrolling arithmetic |
| UiKit.NegativePageLeavesList | src/presentation/uikit.c:51-70 | with a negative page size, paging up from index 2 of 3 items moves to index 3, past the list |
| UiKit.InputText | src/presentation/uikit.c:203-229 | Space appends a space while the text is shorter than `size - 1`; a non-key event changes nothing; text grows by one space or printable character and never past `size - 1` characters; the erasing keys drop the last character |
| UiKit.TypeThenErase | src/presentation/uikit.c:203-229 | typing a printable character with room to spare and then erasing gives the text back |
| UiKit.ScrollOffset | src/presentation/uikit.c:397-405 | with at least one visible line the selection is visible afterwards, the offset is the old one clamped to the window that shows it, and a visible selection keeps the offset |
| UiKit.ScrollSettles | src/presentation/uikit.c:397-405 | adjusting the offset twice is adjusting it once |
| Fuzzy.IsAlnumFast | src/presentation/uikit.c:241-243 | word characters are ASCII and not blank, and upper-case letters are not among them |
| Fuzzy.IsAlnumFastListed | src/presentation/uikit.c:241-243 | a character is a word character if and only if it is one of the ten digits or the 26 lower-case letters |
| Fuzzy.Scan | src/presentation/uikit.c:274-303 | the loop gives up when fewer characters are left than pattern characters, and a score earns at least 10 per remaining pattern character less 1 per other remaining character |
| Fuzzy.FoldPattern | src/presentation/uikit.c:280-281 | upper-case pattern letters become lower-case, and ASCII stays ASCII |
| Fuzzy.FoldItem | src/presentation/uikit.c:278-279 | upper-case item letters become lower-case |
| Fuzzy.LowercaseNeverMatches | src/presentation/uikit.c:278-283 | a lower-case item letter matches no ASCII pattern character |
| Fuzzy.MatchPoints | src/presentation/uikit.c:283-290 | a match earns 10 plus 5 per preceding match in the run, and 15 more exactly when it is the last character or the next character is no word character |
| Fuzzy.ScanFindsEmbedding | src/presentation/uikit.c:274-303 | the greedy loop, early exit included, ends with a score exactly when the rest of the pattern embeds in order in the rest of the string |
| Fuzzy.EmbedsNeedsRoom | src/presentation/uikit.c:298-299 | an embedding needs at least as many characters as pattern characters remain |
| Fuzzy.ScanMismatchStep | src/presentation/uikit.c:292-299 | a mismatch costs one point and resets the run, so the result does not depend on the run before it; with too little room left it gives no match |
| Fuzzy.ScanBehindPrefix | src/presentation/uikit.c:274-303 | the loop over a string behind a prefix gives the loop over the string alone, shifted by the points carried in |
| Fuzzy.ScanSkipsMismatches | src/presentation/uikit.c:274-299 | characters that cannot match the first pattern character are passed over at one point each, or end in no match when the rest is too short |
| Fuzzy.FuzzyScoreSkipsMismatches | src/presentation/uikit.c:257-305 | a prefix none of whose characters matches the first pattern character lowers the score by its length and leaves a non-match a non-match |
| Fuzzy.RunResetExample | src/presentation/uikit.c:283-294 | "ab" against "AxB" scores 34, since the mismatch resets the run before the `b` |
| Fuzzy.SkippedPrefixExample | src/presentation/uikit.c:264-305 | "ab" against "xAB" scores 54 |
| Fuzzy.FuzzyScore | src/presentation/uikit.c:264-305 | an empty pattern scores 0; there is a score exactly when the pattern embeds in the string; a pattern longer than the string never matches; a score is at least 11 times the pattern length less the string length |
| Fuzzy.RunBonusClosed | src/presentation/uikit.c:283-290 | the run bonuses of n matches in a row add up to 5 n (n - 1) / 2 |
| Fuzzy.MatchPointsCounted | src/presentation/uikit.c:283-290 | the points of a match at position k after k matches, with the word-end bonus counted as the change in the number of word ends |
| Fuzzy.ContiguousPointsClosed | src/presentation/uikit.c:283-290 | the matches at positions k to n - 1 of a run from the start earn 10 per match, the run bonuses, and 15 per word end among them |
| Fuzzy.ScanMatchStep | src/presentation/uikit.c:279-296 | a match at position k with a run of k moves string and pattern on by one and adds what the match earns |
| Fuzzy.ScanContiguous | src/presentation/uikit.c:275-305 | the loop over a pattern matched character by character scores the sum of what those matches earn |
| Fuzzy.ContiguousScore | src/presentation/uikit.c:264-305 | a pattern of length n matched character by character from the start scores exactly 10 n + 5 n (n - 1) / 2 + 15 per word end among its first n positions |
| Fuzzy.ContiguousExample | src/presentation/uikit.c:264-305 | "abc" against the item "ABC" scores 90, every match ending a word |
| Fuzzy.ContiguousExampleMidWord | src/presentation/uikit.c:264-305 | "a" against the item "Axxxx" scores 10, with no word-end bonus |
| Fuzzy.ContiguousLowerBound | src/presentation/uikit.c:264-305 | a pattern matched character by character from the start scores at least 10 n + 5 n (n - 1) / 2 for a pattern of length n |
| Fuzzy.LowercaseItemNeverMatches | src/presentation/uikit.c:264-305 | an all-lower-case item scores no match for a pattern starting with an ASCII character |
| Fuzzy.CompareScoreDesc | src/presentation/uikit.c:317-321 | negative exactly when the first score ranks above, positive exactly when the second does, in -1..1 |
| Fuzzy.CompareIsConsistent | src/presentation/uikit.c:317-321 | the comparator is antisymmetric, and its order is total and transitive, as `qsort` needs |
| Fuzzy.Insert | src/presentation/uikit.c:337-359 | inserting into a ranked list keeps it ranked and adds exactly the item |
| Fuzzy.SortByRank | src/presentation/uikit.c:337-359 | the sorted items are a permutation of the input with ranks that never increase |
| Fuzzy.ListFilter | src/presentation/uikit.c:337-359 | NULL items or query, or a non-positive count, change nothing; otherwise the first `count` items are permuted into best-score-first order, ids moving with names, and the rest stay put |
| Fuzzy.MatchesComeFirst | src/presentation/uikit.c:337-359 | after filtering, every matching item comes before every non-matching one |
| PrayerTimes.PathFor | src/domain/get_prayer_times.c:164-166 | the path holds at most 13 characters and is a prefix of `/<id>/<year>/<month>`; it is the whole of it exactly when that fits |
| PrayerTimes.EndpointFor | src/domain/get_prayer_times.c:168-176 | the endpoint is `/v2`, the unfilled route template and the path, uncut |
| PrayerTimes.FourDigits | src/domain/get_prayer_times.c:164-166 | a year from 1000 to 9999 takes four digits |
| PrayerTimes.MonthDigits | src/domain/get_prayer_times.c:164-166 | a month takes one or two digits, without padding |
| PrayerTimes.ShortIdsFit | src/domain/get_prayer_times.c:164-166 | ids of up to four characters with a four-digit year and a month lose nothing to the buffer |
| PrayerTimes.PathExample | src/domain/get_prayer_times.c:164-166 | city `1301` in March 2025 gives `/1301/2025/3` |
| PrayerTimes.GetPrayerTimes | src/domain/get_prayer_times.c:152-199 | a NULL id or destination gives -1 and no request; otherwise the request is for the built endpoint on `api.myquran.com`; 0 exactly when `get` succeeds and the body parses, and only then is `*dest` written |

## Left out

- **Name resolution, sockets and TLS** (`connection.c:1-135` and `get` lines 267-286). Their failures and their cleanup are I/O. The model takes the outcome as `Connection.established`.
- **Allocation failures.** Every `malloc`, `realloc` and `strndup` is assumed to succeed. The failure paths only return -1 or NULL after freeing.
- **The contents of fresh `realloc` bytes.** They are unspecified in C. `HttpClient.Realloc` fills them with NUL, which does not affect anything read back before the terminator.
- **Drawing.** `listview`, `inputtext` rendering, the thumb drawing of `scrollbar` (`uikit.c:407-419`) and the termbox calls are left out. Terminal height enters as `visible`, termbox key codes become the `UiKit.Key` datatype, and the character of an event is an `int`.
- **The JSON parser and the result structs** (`parse_json`, `struct prayer_times`, freeing). `PrayerTimes.GetPrayerTimes` takes whether the body parses as a parameter. The JSON parser is not part of this model, and neither are `get_cities.c`, `main.c`, `tmutils.c` or `strutils.h`.
- **The clock.** `get_current_time` is replaced by the year and month parameters.
- **Floating point.** Scores are doubles in C that only ever hold integers. They are `int`, and `-DBL_MAX` is `Fuzzy.NoMatch`.
- **Fixed-width integer overflow.** `strtol` clamps on overflow, and `int`/`size_t` arithmetic wraps on huge inputs. Neither is modelled: a size too large to fit never fits, and a negative one ends the body either way. The `uint8_t` status field is modelled (`HttpFraming.StoredStatus`).
- Chunked.Decode: a chunk that claims more bytes than are left makes the C loop read past its input. The model yields what is left and stops. Every member that models the C callers requires `SizesFit`, so this branch is never taken there.
- **The order of ties in `qsort`.** It is unspecified. `Fuzzy.SortByRank` picks one, and `Fuzzy.ListFilter` promises only a permutation ordered by score.
- **Byte-level strings.** One Dafny `char` stands for one C `char`, and no encoding is modelled.

=== FILE: chunked.dfy ===
/**
 * The chunked transfer coding (section 7.1 of RFC 9112) as the client's body
 * extractor decodes it. The C loop walks a pointer over the raw body; the
 * decoder here is stated over the text that is left at that pointer.
 */
module Chunked {
  import opened Wrappers
  import opened CStrings

  /** What one pass of the loop finds at the pointer: stop, or a chunk of `size` bytes whose payload starts at `data`. */
  datatype SizeLine = Stop | Chunk(size: nat, data: nat)

  /** The index of the first byte at or after `i` that is neither CR nor LF. */
  function SkipLineBreaks(rest: string, i: nat): (j: nat)
    requires i <= |rest|
    decreases |rest| - i
    ensures i <= j <= |rest|
    ensures j < |rest| ==> rest[j] != '\r' && rest[j] != '\n'
  {
    if i == |rest| || (rest[i] != '\r' && rest[i] != '\n') then i else SkipLineBreaks(rest, i + 1)
  }

  /** Everything skipped is a CR or an LF. */
  lemma {:induction false} SkippedAreLineBreaks(rest: string, i: nat)
    requires i <= |rest|
    ensures forall k :: i <= k < SkipLineBreaks(rest, i) ==> rest[k] == '\r' || rest[k] == '\n'
    decreases |rest| - i
  {
    if i < |rest| && (rest[i] == '\r' || rest[i] == '\n') {
      SkippedAreLineBreaks(rest, i + 1);
    }
  }

  /** Where a read of a size line stands: still skipping CR and LF, or at the size itself. */
  datatype Phase = AtLineBreaks | AtSize

  /**
   * One read of a size line from index `i`: skip CR and LF, then stop when the
   * size parsed with `strtol` in base 16 is not positive or when no LF follows
   * (`strchr` searches from where the size starts); otherwise the payload
   * starts just after that LF.
   */
  function SizeLineFrom(rest: string, i: nat, phase: Phase): (r: SizeLine)
    requires i <= |rest|
    decreases |rest| - i, phase == AtLineBreaks
    ensures r.Chunk? ==> r.size >= 1 && i < r.data <= |rest|
  {
    match phase
    case AtLineBreaks =>
      if i < |rest| && (rest[i] == '\r' || rest[i] == '\n') then SizeLineFrom(rest, i + 1, AtLineBreaks)
      else SizeLineFrom(rest, i, AtSize)
    case AtSize =>
      var n := StrToL(rest, i, 16);
      if n <= 0 then Stop
      else match FindChar(rest, '\n', i)
        case None => Stop
        case Some(k) => Chunk(n, k + 1)
  }

  /** One pass of the loop reads a size line, unless the text is used up. */
  function ReadSizeLine(rest: string): (r: SizeLine)
    ensures r.Chunk? ==> r.size >= 1 && 0 < r.data <= |rest|
  {
    if |rest| == 0 then Stop else SizeLineFrom(rest, 0, AtLineBreaks)
  }

  /** Skipping line breaks lands where `SkipLineBreaks` says, and the size is read from there. */
  lemma {:induction false} SizeLineAfterBreaks(rest: string, i: nat)
    requires i <= |rest|
    ensures SizeLineFrom(rest, i, AtLineBreaks) == SizeLineFrom(rest, SkipLineBreaks(rest, i), AtSize)
    decreases |rest| - i
  {
    if i < |rest| && (rest[i] == '\r' || rest[i] == '\n') {
      SizeLineAfterBreaks(rest, i + 1);
    }
  }

  /** The text after a chunk's payload, past the CR LF that closes it when both bytes are there. */
  function AfterPayload(tail: string): (r: string)
    ensures |r| <= |tail| && tail == tail[..|tail| - |r|] + r
    ensures tail[..|tail| - |r|] == "" || tail[..|tail| - |r|] == "\r\n"
    ensures |tail| >= 2 && tail[..2] == "\r\n" ==> |r| == |tail| - 2
  {
    if |tail| >= 2 && tail[0] == '\r' && tail[1] == '\n' then tail[2..] else tail
  }

  /**
   * Every size the loop reads fits in the text after its size line. The C code
   * copies the declared number of bytes without checking, so this is what it
   * needs of its input.
   */
  predicate SizesFit(rest: string)
    decreases |rest|
  {
    match ReadSizeLine(rest)
    case Stop => true
    case Chunk(n, d) => d + n <= |rest| && SizesFit(AfterPayload(rest[d + n..]))
  }

  /**
   * The decoded body: the payloads, in order, until the loop stops. The output
   * never outgrows the input, so the buffer of `strlen(body) + 1` bytes holds it.
   * A chunk that claims more bytes than are left makes the C code read past
   * its input; here it yields what is left and ends the body, and callers that
   * model the C code require `SizesFit`, under which this never happens.
   */
  function Decode(rest: string): (out: string)
    ensures |out| <= |rest|
    decreases |rest|
  {
    match ReadSizeLine(rest)
    case Stop => ""
    case Chunk(n, d) =>
      if d + n > |rest| then rest[d..]
      else rest[d..d + n] + Decode(AfterPayload(rest[d + n..]))
  }

  /** One chunk as a server frames it: size in hexadecimal, CR LF, payload, CR LF. */
  function Frame(c: string): string
  {
    Digits(|c|, 16) + "\r\n" + c + "\r\n"
  }

  /** The chunks framed one after another, then `rest`. */
  function Framed(chunks: seq<string>, rest: string): string
  {
    if |chunks| == 0 then rest else Frame(chunks[0]) + Framed(chunks[1..], rest)
  }

  /** The last chunk: size zero and the empty line that ends the message body. */
  const LastChunk: string := "0\r\n\r\n"

  /** All chunks are non-empty: a zero size would end the body early. */
  ghost predicate NonEmpty(chunks: seq<string>)
  {
    forall i :: 0 <= i < |chunks| ==> |chunks[i]| > 0
  }

  /** The chunks after the first are non-empty too. */
  lemma {:induction false} NonEmptyTail(chunks: seq<string>)
    requires NonEmpty(chunks) && |chunks| > 0
    ensures NonEmpty(chunks[1..])
  {
    forall i | 0 <= i < |chunks[1..]| ensures |chunks[1..][i]| > 0 {
      assert chunks[1..][i] == chunks[i + 1];
    }
  }

  /** A size line as a server writes it reads as a chunk of that size whose payload starts after the CR LF. */
  lemma {:induction false} ReadFramedSizeLine(n: nat, tail: string)
    requires n >= 1
    ensures ReadSizeLine((Digits(n, 16) + "\r\n") + tail) == Chunk(n, |Digits(n, 16)| + 2)
  {
    var h := Digits(n, 16);
    var s := (h + "\r\n") + tail;
    AppendAssoc(h, "\r\n", tail);
    DigitsInClass(n, 16);
    assert s[0] == h[0];
    assert SizeLineFrom(s, 0, AtLineBreaks) == SizeLineFrom(s, 0, AtSize);
    HexReadsBack(n, "\r\n" + tail);
    assert s[|h|] == '\r' && s[|h| + 1] == '\n';
    assert forall k :: 0 <= k < |h| ==> s[k] == h[k] && s[k] != '\n';
    FindCharAt(s, '\n', 0, |h| + 1);
  }

  /** A framed chunk followed by `more` is its size line, its payload, and CR LF before `more`. */
  lemma {:induction false} FrameSplit(c: string, more: string)
    ensures Frame(c) + more == (Digits(|c|, 16) + "\r\n") + (c + ("\r\n" + more))
  {
    var pre := Digits(|c|, 16) + "\r\n";
    AppendAssoc(pre + c, "\r\n", more);
    AppendAssoc(pre, c, "\r\n" + more);
  }

  /** The payload and what follows it, as the loop's pointer arithmetic finds them. */
  lemma {:induction false} PayloadSlices(pre: string, payload: string, more: string)
    ensures var s := pre + (payload + ("\r\n" + more));
      s[|pre|..|pre| + |payload|] == payload && AfterPayload(s[|pre| + |payload|..]) == more
  {
    var s := pre + (payload + ("\r\n" + more));
    assert s[|pre| + |payload|..] == "\r\n" + more;
    assert ("\r\n" + more)[2..] == more;
  }

  /**
   * One pass of the loop over a chunk that fits and is closed by CR LF: its
   * payload is copied out and decoding goes on after it.
   */
  lemma {:induction false} DecodeStep(pre: string, payload: string, more: string)
    requires ReadSizeLine(pre + (payload + ("\r\n" + more))) == Chunk(|payload|, |pre|)
    ensures Decode(pre + (payload + ("\r\n" + more))) == payload + Decode(more)
  {
    PayloadSlices(pre, payload, more);
  }

  /** Such a chunk keeps the sizes fitting when those after it fit. */
  lemma {:induction false} FitsStep(pre: string, payload: string, more: string)
    requires ReadSizeLine(pre + (payload + ("\r\n" + more))) == Chunk(|payload|, |pre|)
    requires SizesFit(more)
    ensures SizesFit(pre + (payload + ("\r\n" + more)))
  {
    PayloadSlices(pre, payload, more);
  }

  /** A framed non-empty chunk keeps the sizes fitting when those after it fit. */
  lemma {:induction false} FrameFits(c: string, more: string)
    requires |c| > 0
    requires SizesFit(more)
    ensures SizesFit(Frame(c) + more)
  {
    FrameSplit(c, more);
    ReadFramedSizeLine(|c|, c + ("\r\n" + more));
    FitsStep(Digits(|c|, 16) + "\r\n", c, more);
  }

  /** A framed non-empty chunk decodes to its payload, and decoding goes on after it. */
  lemma {:induction false} DecodeFrame(c: string, more: string)
    requires |c| > 0
    ensures Decode(Frame(c) + more) == c + Decode(more)
  {
    FrameSplit(c, more);
    ReadFramedSizeLine(|c|, c + ("\r\n" + more));
    DecodeStep(Digits(|c|, 16) + "\r\n", c, more);
  }

  /** Framed chunks keep the sizes fitting when what follows them fits. */
  lemma {:induction false} FramedFits(chunks: seq<string>, rest: string)
    requires NonEmpty(chunks)
    requires SizesFit(rest)
    ensures SizesFit(Framed(chunks, rest))
  {
    if |chunks| > 0 {
      NonEmptyTail(chunks);
      FramedFits(chunks[1..], rest);
      FrameFits(chunks[0], Framed(chunks[1..], rest));
    }
  }

  /** Framed chunks decode to their payloads, and decoding then carries on with whatever follows them. */
  lemma {:induction false} DecodeFramed(chunks: seq<string>, rest: string)
    requires NonEmpty(chunks)
    ensures Decode(Framed(chunks, rest)) == Flatten(chunks) + Decode(rest)
  {
    if |chunks| > 0 {
      var c := chunks[0];
      NonEmptyTail(chunks);
      DecodeFramed(chunks[1..], rest);
      DecodeFrame(c, Framed(chunks[1..], rest));
      assert Flatten(chunks) == c + Flatten(chunks[1..]);
      AppendAssoc(c, Flatten(chunks[1..]), Decode(rest));
    }
  }

  /** The last chunk ends decoding: nothing after it is read. */
  lemma {:induction false} LastChunkStops(trailer: string)
    ensures ReadSizeLine(LastChunk + trailer) == Stop
  {
    var s := LastChunk + trailer;
    assert s[0] == '0' && s[1] == '\r';
    assert SizeLineFrom(s, 0, AtLineBreaks) == SizeLineFrom(s, 0, AtSize);
    assert Run(s, 0, Space) == 0;
    assert ScanDigits(s, 1, 16, 0) == 0;
  }

  /**
   * Round trip: a body written with the chunked coding decodes to the
   * concatenation of its chunks, whatever follows the last chunk, and every
   * size in it fits.
   */
  lemma {:induction false} DecodeEncode(chunks: seq<string>, trailer: string)
    requires NonEmpty(chunks)
    ensures SizesFit(Framed(chunks, LastChunk + trailer))
    ensures Decode(Framed(chunks, LastChunk + trailer)) == Flatten(chunks)
  {
    LastChunkStops(trailer);
    FramedFits(chunks, LastChunk + trailer);
    DecodeFramed(chunks, LastChunk + trailer);
  }

  /**
   * The three ways the loop stops before a chunk: end of the text, a size
   * that parses as zero or less (a zero chunk or no digits at all), or a size
   * line with no LF after it. In each, the output decoded so far is the body.
   */
  lemma {:induction false} DecodeStopsKeepingOutput(chunks: seq<string>, rest: string)
    requires NonEmpty(chunks)
    requires |rest| == 0
          || StrToL(rest, SkipLineBreaks(rest, 0), 16) <= 0
          || FindChar(rest, '\n', SkipLineBreaks(rest, 0)).None?
    ensures SizesFit(Framed(chunks, rest))
    ensures Decode(Framed(chunks, rest)) == Flatten(chunks)
  {
    if |rest| > 0 {
      SizeLineAfterBreaks(rest, 0);
    }
    assert ReadSizeLine(rest) == Stop;
    FramedFits(chunks, rest);
    DecodeFramed(chunks, rest);
  }

  /**
   * The example of a single chunk.
   * The literal arrives as a parameter: written inline, it lets the verifier unfold
   * the functions applied to it eagerly, which makes the proof much more expensive.
   */
  lemma {:induction false} DecodeOneChunk(body: string)
    requires body == "5\r\nHello\r\n0\r\n\r\n"
    ensures SizesFit(body) && Decode(body) == "Hello"
  {
    var chunks := ["Hello"];
    assert Framed(chunks, LastChunk) == body by {
      assert Digits(5, 16) == "5";
      assert chunks[1..] == [];
    }
    assert Flatten(chunks) == "Hello" by {
      assert chunks[1..] == [];
    }
    assert LastChunk + "" == LastChunk;
    DecodeEncode(chunks, "");
  }

  /**
   * The example of two chunks.
   * The literal arrives as a parameter: written inline, it lets the verifier unfold
   * the functions applied to it eagerly, which makes the proof much more expensive.
   */
  lemma {:induction false} DecodeTwoChunks(body: string)
    requires body == "3\r\nfoo\r\n3\r\nbar\r\n0\r\n\r\n"
    ensures SizesFit(body) && Decode(body) == "foobar"
  {
    var chunks := ["foo", "bar"];
    assert Framed(chunks, LastChunk) == body by {
      assert Digits(3, 16) == "3";
      assert chunks[1..] == ["bar"] && chunks[1..][1..] == [];
      assert Framed(chunks[1..], LastChunk) == Frame("bar") + LastChunk;
    }
    assert Flatten(chunks) == "foobar" by {
      assert chunks[1..] == ["bar"] && chunks[1..][1..] == [];
    }
    assert LastChunk + "" == LastChunk;
    DecodeEncode(chunks, "");
  }
}

=== FILE: client.dfy ===
/**
 * The request/response steps of `get`: rendering the request, gathering the
 * reads into a growing buffer, and handing the terminated buffer to the
 * response framing. The socket and the TLS session are replaced by a
 * `Connection` value that says how the peer behaved.
 */
module HttpClient {
  import opened Wrappers
  import opened CStrings
  import opened HttpFraming

  /** `HOST`. */
  const Host: string := "api.myquran.com"

  /** `CHUNK_SIZE`: the size of the read buffer and the first capacity of the response buffer. */
  const ReadSize: nat := 4096

  /** What the request line and the headers add to the path and the host. */
  const RequestOverhead: nat := 44

  /**
   * The request of `get`: a request line in the form of section 3 of RFC 9112,
   * a Host header, and `Connection: close` (section 9.6 of RFC 9112).
   */
  function RenderRequest(path: string, host: string): (r: string)
    ensures |r| == |path| + |host| + RequestOverhead
    ensures r[..4] == "GET " && r[4..4 + |path|] == path
  {
    "GET " + path + " HTTP/1.1\r\nHost: " + host + "\r\nConnection: close\r\n\r\n"
  }

  /**
   * A request as `RenderRequest` lays it out, split back into path and host:
   * the path runs to the first space.
   */
  function ParseRequest(r: string): (res: Option<(string, string)>)
    ensures res.Some? ==> ' ' !in res.value.0
    ensures res.Some? ==> |r| == |res.value.0| + |res.value.1| + RequestOverhead
  {
    if |r| < RequestOverhead || r[..4] != "GET " || r[|r| - 23..] != "\r\nConnection: close\r\n\r\n" then None
    else
      var mid := r[4..|r| - 23];
      FindCharSkips(mid, ' ', 0);
      match FindChar(mid, ' ', 0)
      case None => None
      case Some(k) =>
        if k + 17 <= |mid| && mid[k..k + 17] == " HTTP/1.1\r\nHost: " then
          assert mid[..k] == mid[0..k];
          Some((mid[..k], mid[k + 17..]))
        else None
  }

  /** A path without spaces, which is what a request target is, and any host come back out of the request. */
  lemma {:induction false} RequestRoundTrip(path: string, host: string)
    requires ' ' !in path
    ensures ParseRequest(RenderRequest(path, host)) == Some((path, host))
  {
    var r := RenderRequest(path, host);
    var mid := path + " HTTP/1.1\r\nHost: " + host;
    assert r == "GET " + mid + "\r\nConnection: close\r\n\r\n";
    assert r[..4] == "GET ";
    assert r[|r| - 23..] == "\r\nConnection: close\r\n\r\n";
    assert r[4..|r| - 23] == mid;
    assert mid[|path|] == ' ';
    FindCharAt(mid, ' ', 0, |path|);
    assert mid[|path|..|path| + 17] == " HTTP/1.1\r\nHost: ";
    assert mid[..|path|] == path;
    assert mid[|path| + 17..] == host;
  }

  /**
   * `snprintf(NULL, 0, ...)` counts the request, and the second `snprintf`,
   * given one byte more, writes all of it.
   */
  lemma {:induction false} RequestFitsItsBuffer(path: string, host: string)
    ensures Truncate(RenderRequest(path, host), |path| + |host| + RequestOverhead + 1) == RenderRequest(path, host)
  {
  }

  /** The capacity the next `realloc` asks for. */
  function NextCapacity(capacity: nat, total: nat, rv: nat): (r: nat)
    ensures r > capacity && r > total + rv
    ensures r == (if capacity == 0 then ReadSize else 2 * capacity) || r == total + rv + 1
    ensures total + rv < (if capacity == 0 then ReadSize else 2 * capacity) ==> r == (if capacity == 0 then ReadSize else 2 * capacity)
  {
    var doubled := if capacity == 0 then ReadSize else capacity * 2;
    if total + rv >= doubled then total + rv + 1 else doubled
  }

  /**
   * `realloc`: a block of `size` bytes that starts with the old block. What
   * the new bytes hold is unspecified; here they are NUL.
   */
  function Realloc(block: Option<string>, size: nat): (r: string)
    requires block.Some? ==> |block.value| <= size
    ensures |r| == size
    ensures block.Some? ==> r[..|block.value|] == block.value
  {
    var kept := if block.Some? then block.value else "";
    kept + seq(size - |kept|, _ => NUL)
  }

  /**
   * The read loop of `get`: each read is copied in at `total` after growing
   * the buffer, and the buffer is NUL-terminated at `total` at the end. No
   * read leaves the buffer NULL.
   */
  method Accumulate(incoming: seq<string>) returns (response: Option<string>, total: nat, capacity: nat)
    requires forall i :: 0 <= i < |incoming| ==> 0 < |incoming[i]| <= ReadSize
    ensures response.None? <==> |incoming| == 0
    ensures total == |Flatten(incoming)|
    ensures capacity == CapacityAfter(incoming)
    ensures |incoming| > 0 ==> ReadSize <= capacity
    ensures response.Some? ==>
      |response.value| == capacity && total < capacity &&
      response.value[..total] == Flatten(incoming) && response.value[total] == NUL
    ensures response.Some? ==> CStr(response.value) == CStr(Flatten(incoming))
  {
    response := None;
    total := 0;
    capacity := 0;
    var i := 0;
    while i < |incoming|
      invariant 0 <= i <= |incoming|
      invariant total == |Flatten(incoming[..i])|
      invariant response.None? <==> i == 0
      invariant capacity == CapacityAfter(incoming[..i])
      invariant i > 0 ==> ReadSize <= capacity
      invariant response.Some? ==>
        |response.value| == capacity && total < capacity && response.value[..total] == Flatten(incoming[..i])
    {
      var rv := |incoming[i]|;
      var next := NextCapacity(capacity, total, rv);
      var grown := Realloc(response, next);
      assert grown[..total] == Flatten(incoming[..i]) by {
        if response.Some? {
          assert grown[..total] == grown[..capacity][..total];
        }
      }
      var copied := grown[..total] + incoming[i] + grown[total + rv..];
      FlattenSnoc(incoming[..i], incoming[i]);
      assert incoming[..i + 1] == incoming[..i] + [incoming[i]];
      assert incoming[..i + 1][..i] == incoming[..i];
      assert copied[..total + rv] == Flatten(incoming[..i + 1]);
      response := Some(copied);
      total := total + rv;
      capacity := next;
      i := i + 1;
    }
    assert incoming[..i] == incoming;
    if response.Some? {
      var terminated := response.value[total := NUL];
      assert terminated[..total] == response.value[..total];
      CStrBeforeTerminator(terminated, total);
      response := Some(terminated);
    }
  }

  /**
   * The capacity of the buffer once `incoming` have been copied in: 0 before
   * the first read, and always more than the bytes it holds.
   */
  function CapacityAfter(incoming: seq<string>): (c: nat)
    ensures |incoming| == 0 <==> c == 0
    ensures |incoming| > 0 ==> c > |Flatten(incoming)|
    decreases |incoming|
  {
    if |incoming| == 0 then 0
    else
      var before := incoming[..|incoming| - 1];
      assert incoming == before + [incoming[|incoming| - 1]];
      FlattenSnoc(before, incoming[|incoming| - 1]);
      NextCapacity(CapacityAfter(before), |Flatten(before)|, |incoming[|incoming| - 1]|)
  }

  /** Every read makes the buffer strictly larger. */
  lemma {:induction false} CapacityGrows(incoming: seq<string>, next: string)
    ensures CapacityAfter(incoming + [next]) > CapacityAfter(incoming)
  {
    assert (incoming + [next])[..|incoming|] == incoming;
  }

  /**
   * How the peer behaves: whether the TLS connection comes up, what
   * `SSL_write` returns, and the positive results of `SSL_read` before the
   * first one that is not.
   */
  datatype Connection = Connection(established: bool, written: int, incoming: seq<string>)

  /** What `SSL_read` can hand over into a `ReadSize` buffer. */
  predicate WellFormedReads(incoming: seq<string>)
  {
    forall i :: 0 <= i < |incoming| ==> 0 < |incoming[i]| <= ReadSize
  }

  /** The text `http_response_extract` sees: the terminated buffer read as a C string. */
  function Received(incoming: seq<string>): Option<string>
  {
    if |incoming| == 0 then None else Some(CStr(Flatten(incoming)))
  }

  /**
   * `get`: -1 when the connection fails, when the request is not written in
   * full, or when the response yields neither header nor body, which is the
   * case when nothing was read or it has no separator; otherwise 0 and the
   * extracted response in `*dest`. `dest` is `None` when `*dest` is not
   * written. `sent` is what was handed to `SSL_write`.
   */
  method Get(host: string, path: string, conn: Connection) returns (code: int, sent: Option<string>, dest: Option<Response>)
    requires WellFormedReads(conn.incoming)
    requires |conn.incoming| > 0 ==> BodyDecodable(CStr(Flatten(conn.incoming)))
    ensures conn.established <==> sent == Some(RenderRequest(path, host))
    ensures !conn.established ==> sent.None?
    ensures code == 0 || code == -1
    ensures code == -1 <==>
      !conn.established || conn.written != |path| + |host| + RequestOverhead ||
      |conn.incoming| == 0 || !Contains(CStr(Flatten(conn.incoming)), Separator)
    ensures code == -1 <==> dest.None?
    ensures code == 0 ==> dest == Some(Extract(Received(conn.incoming)))
  {
    dest := None;
    if !conn.established {
      return -1, None, None;
    }
    var requestLen := |path| + |host| + RequestOverhead;
    var request := Truncate(RenderRequest(path, host), requestLen + 1);
    RequestFitsItsBuffer(path, host);
    sent := Some(request);
    if conn.written != requestLen {
      return -1, sent, None;
    }
    var response, total, capacity := Accumulate(conn.incoming);
    var raw: Option<string> := None;
    if response.Some? {
      raw := Some(CStr(response.value));
    }
    assert raw == Received(conn.incoming);
    var extracted := Extract(raw);
    if extracted.header.None? && extracted.body.None? {
      return -1, sent, None;
    }
    code := 0;
    dest := Some(extracted);
  }
}

=== FILE: cstrings.dfy ===
/**
 * The C library string routines the client and the domain code lean on
 * (strlen, strstr, strchr, strtol, atoi, "%d" and snprintf truncation),
 * stated over `string`. One `char` of a `string` stands for one C `char`.
 */
module CStrings {
  import opened Wrappers

  const NUL: char := '\0'

  /** The text a C string pointer denotes: everything before the first NUL, as `strlen` counts it. */
  function CStr(s: string): (r: string)
    ensures |r| <= |s| && r == s[..|r|]
    ensures NUL !in r
    ensures |r| < |s| ==> s[|r|] == NUL
  {
    if |s| == 0 || s[0] == NUL then "" else [s[0]] + CStr(s[1..])
  }

  /** A string with no NUL is its own C string. */
  lemma {:induction false} CStrOfPlainText(s: string)
    requires NUL !in s
    ensures CStr(s) == s
  {
    if |s| > 0 {
      assert s[0] != NUL;
      assert NUL !in s[1..] by {
        forall i | 0 <= i < |s[1..]| ensures s[1..][i] != NUL {
          assert s[1..][i] == s[i + 1];
        }
      }
      CStrOfPlainText(s[1..]);
      assert [s[0]] + s[1..] == s;
    }
  }

  /** The contract of `CStr` pins it down: any NUL-free prefix followed by a NUL or the end is it. */
  lemma {:induction false} CStrUnique(s: string, r: string)
    requires |r| <= |s| && r == s[..|r|]
    requires NUL !in r
    requires |r| < |s| ==> s[|r|] == NUL
    ensures CStr(s) == r
  {
  }

  /** A NUL written at `n` ends the C string no later than `n`. */
  lemma {:induction false} CStrBeforeTerminator(s: string, n: nat)
    requires n < |s| && s[n] == NUL
    ensures CStr(s) == CStr(s[..n])
  {
    var r := CStr(s[..n]);
    assert r == s[..|r|];
    CStrUnique(s, r);
  }

  /** The parts, one after another. */
  function Flatten(parts: seq<string>): (r: string)
    ensures |parts| == 0 ==> r == ""
  {
    if |parts| == 0 then "" else parts[0] + Flatten(parts[1..])
  }

  /** Concatenation is associative. */
  lemma {:induction false} AppendAssoc(a: string, b: string, c: string)
    ensures a + (b + c) == (a + b) + c
  {
  }

  /** Appending a part at the end appends its text at the end. */
  lemma {:induction false} FlattenSnoc(parts: seq<string>, p: string)
    ensures Flatten(parts + [p]) == Flatten(parts) + p
  {
    if |parts| == 0 {
      assert parts + [p] == [p];
      assert [p][1..] == [];
    } else {
      assert (parts + [p])[1..] == parts[1..] + [p];
      FlattenSnoc(parts[1..], p);
    }
  }

  /** `pat` occurs in `s` starting at index `i`. */
  predicate OccursAt(s: string, pat: string, i: nat)
  {
    i + |pat| <= |s| && s[i..i + |pat|] == pat
  }

  /** `pat` occurs somewhere in `s`. */
  ghost predicate Contains(s: string, pat: string)
  {
    exists i: nat :: OccursAt(s, pat, i)
  }

  /** `strstr` begun at `from`: the first index at or after `from` where `pat` occurs. */
  function FindFrom(s: string, pat: string, from: nat): (r: Option<nat>)
    decreases |s| - from
    ensures r.Some? ==> from <= r.value && OccursAt(s, pat, r.value)
    ensures r.Some? ==> forall k: nat :: from <= k < r.value ==> !OccursAt(s, pat, k)
    ensures r.None? ==> forall k: nat :: from <= k ==> !OccursAt(s, pat, k)
  {
    if from + |pat| > |s| then None
    else if s[from..from + |pat|] == pat then Some(from)
    else FindFrom(s, pat, from + 1)
  }

  /** `strstr(s, pat)`: the first occurrence of `pat` in `s`, `None` (NULL) when there is none. */
  function Find(s: string, pat: string): (r: Option<nat>)
    ensures r.Some? <==> Contains(s, pat)
    ensures r.Some? ==> OccursAt(s, pat, r.value)
    ensures r.Some? ==> forall k: nat :: k < r.value ==> !OccursAt(s, pat, k)
  {
    FindFrom(s, pat, 0)
  }

  /** An occurrence with none before it is the one `strstr` reports. */
  lemma {:induction false} FindIsFirst(s: string, pat: string, i: nat)
    requires OccursAt(s, pat, i)
    requires forall k: nat :: k < i ==> !OccursAt(s, pat, k)
    ensures Find(s, pat) == Some(i)
  {
    assert Contains(s, pat);
  }

  /**
   * `strchr` begun at `from`: the first index at or after `from` holding `c`.
   * That it is the first, and that `None` means there is none, is stated in
   * `FindCharFirst`, out of the contract, so that the parsers built on it stay
   * cheap to reason about.
   */
  function FindChar(s: string, c: char, from: nat): (r: Option<nat>)
    decreases |s| - from
    ensures r.Some? ==> from <= r.value < |s| && s[r.value] == c
  {
    if from >= |s| then None
    else if s[from] == c then Some(from)
    else FindChar(s, c, from + 1)
  }

  /** No `c` lies between `from` and what `FindChar` reports; `None` means no `c` at all from `from` on. */
  lemma {:induction false} FindCharFirst(s: string, c: char, from: nat)
    ensures FindChar(s, c, from).Some? ==> forall k :: from <= k < FindChar(s, c, from).value ==> s[k] != c
    ensures FindChar(s, c, from).None? ==> forall k :: from <= k < |s| ==> s[k] != c
    decreases |s| - from
  {
    if from < |s| && s[from] != c {
      FindCharFirst(s, c, from + 1);
    }
  }

  /** The same facts as slices: the text `FindChar` skips holds no `c`. */
  lemma {:induction false} FindCharSkips(s: string, c: char, from: nat)
    requires from <= |s|
    ensures FindChar(s, c, from).Some? ==> c !in s[from..FindChar(s, c, from).value]
    ensures FindChar(s, c, from).None? ==> c !in s[from..]
  {
    FindCharFirst(s, c, from);
    var r := FindChar(s, c, from);
    var hi := if r.Some? then r.value else |s|;
    forall i | 0 <= i < hi - from ensures s[from..hi][i] != c {
      assert s[from..hi][i] == s[from + i];
    }
    assert s[from..] == s[from..|s|];
  }

  /** Conversely, the first `c` at or after `from` is the one `FindChar` reports. */
  lemma {:induction false} FindCharAt(s: string, c: char, from: nat, k: nat)
    requires from <= k < |s| && s[k] == c
    requires forall j :: from <= j < k ==> s[j] != c
    ensures FindChar(s, c, from) == Some(k)
    decreases k - from
  {
    if from < k {
      FindCharAt(s, c, from + 1, k);
    }
  }

  /** The character classes of the C locale that the parsers below use. */
  datatype CharClass = Space | Digit | HexDigit

  /** `isspace`, `isdigit` and `isxdigit` in the C locale. */
  predicate InClass(c: char, k: CharClass)
  {
    match k
    case Space => c == ' ' || c == '\t' || c == '\n' || c == '\r' || c as int == 11 || c as int == 12
    case Digit => '0' <= c <= '9'
    case HexDigit => '0' <= c <= '9' || 'a' <= c <= 'f' || 'A' <= c <= 'F'
  }

  /** Number of characters of class `k` in `s` from index `from` on, up to the first one outside `k`. */
  function Run(s: string, from: nat, k: CharClass): (n: nat)
    requires from <= |s|
    decreases |s| - from
    ensures from + n <= |s|
    ensures from + n < |s| ==> !InClass(s[from + n], k)
  {
    if from == |s| || !InClass(s[from], k) then 0 else 1 + Run(s, from + 1, k)
  }

  /** The digit class of a base: decimal digits for 10, hexadecimal digits for 16. */
  function DigitClass(radix: nat): CharClass
  {
    if radix == 16 then HexDigit else Digit
  }

  /** The value of a digit character, in base 16 (so also in base 10); 0 for any other character. */
  function DigitValue(c: char): (d: nat)
    ensures d < 16
    ensures InClass(c, Digit) ==> d < 10
  {
    if '0' <= c <= '9' then c as int - '0' as int
    else if 'a' <= c <= 'f' then c as int - 'a' as int + 10
    else if 'A' <= c <= 'F' then c as int - 'A' as int + 10
    else 0
  }

  /** The digit character for `d`, lower-case beyond 9. */
  function DigitChar(d: nat): (c: char)
    requires d < 16
    ensures InClass(c, HexDigit) && DigitValue(c) == d
    ensures d < 10 ==> InClass(c, Digit)
  {
    if d < 10 then ('0' as int + d) as char else ('a' as int + d - 10) as char
  }

  /** The number the digits `s[lo..hi]` denote in base `radix`, most significant digit first. */
  function Value(s: string, lo: nat, hi: nat, radix: nat): nat
    requires lo <= hi <= |s|
    decreases hi - lo
  {
    if hi == lo then 0 else Value(s, lo, hi - 1, radix) * radix + DigitValue(s[hi - 1])
  }

  /**
   * The digit loop of `strtol`: fold each digit of base `radix` from index `i`
   * on into `acc`, stopping at the first character that is not one.
   */
  function ScanDigits(s: string, i: nat, radix: nat, acc: nat): nat
    requires i <= |s|
    decreases |s| - i
  {
    if i == |s| || !InClass(s[i], DigitClass(radix)) then acc
    else ScanDigits(s, i + 1, radix, acc * radix + DigitValue(s[i]))
  }

  /** Scanning a stretch of digits from `i` to `m` accumulates the value they denote. */
  lemma {:induction false} ScanDigitsValue(s: string, i: nat, m: nat, radix: nat)
    requires i <= m <= |s|
    requires forall j :: i <= j < m ==> InClass(s[j], DigitClass(radix))
    ensures ScanDigits(s, i, radix, 0) == ScanDigits(s, m, radix, Value(s, i, m, radix))
    decreases m - i
  {
    if m > i {
      ScanDigitsValue(s, i, m - 1, radix);
    }
  }

  /** Digits read from a string read the same with anything appended. */
  lemma {:induction false} ValueOfPrefix(a: string, b: string, lo: nat, hi: nat, radix: nat)
    requires lo <= hi <= |a|
    ensures Value(a + b, lo, hi, radix) == Value(a, lo, hi, radix)
    decreases hi - lo
  {
    if hi > lo {
      ValueOfPrefix(a, b, lo, hi - 1, radix);
      assert (a + b)[hi - 1] == a[hi - 1];
    }
  }

  /** The digits of `n` in base `radix`: no sign, no padding, no leading zero. */
  function Digits(n: nat, radix: nat): (r: string)
    requires radix == 10 || radix == 16
    ensures |r| >= 1
    ensures n < radix ==> |r| == 1
  {
    if n < radix then [DigitChar(n)] else Digits(n / radix, radix) + [DigitChar(n % radix)]
  }

  /** Reading the digits back gives the number. */
  lemma {:induction false} DigitsRoundTrip(n: nat, radix: nat)
    requires radix == 10 || radix == 16
    ensures Value(Digits(n, radix), 0, |Digits(n, radix)|, radix) == n
  {
    var ds := Digits(n, radix);
    if n >= radix {
      var hi := Digits(n / radix, radix);
      assert ds == hi + [DigitChar(n % radix)];
      ValueOfPrefix(hi, [DigitChar(n % radix)], 0, |hi|, radix);
      DigitsRoundTrip(n / radix, radix);
    }
  }

  /** Every character written is a digit of the base. */
  lemma {:induction false} DigitsInClass(n: nat, radix: nat)
    requires radix == 10 || radix == 16
    ensures forall i :: 0 <= i < |Digits(n, radix)| ==> InClass(Digits(n, radix)[i], DigitClass(radix))
  {
    if n >= radix {
      DigitsInClass(n / radix, radix);
    }
  }

  /** A positive number is written without a leading zero. */
  lemma {:induction false} DigitsNoLeadingZero(n: nat, radix: nat)
    requires radix == 10 || radix == 16
    requires n >= 1
    ensures Digits(n, radix)[0] != '0'
  {
    if n >= radix {
      DigitsNoLeadingZero(n / radix, radix);
    }
  }

  /** `"%d"` of an int: a minus sign for negatives, then the decimal digits. */
  function IntToDec(n: int): (r: string)
    ensures |r| >= 1
    ensures n >= 0 ==> AtoI(r) == n
    ensures n < 0 ==> r[0] == '-'
  {
    if n < 0 then "-" + Digits(-n, 10)
    else
      DigitsInClass(n, 10);
      AtoIOfDigits(Digits(n, 10));
      DigitsRoundTrip(n, 10);
      Digits(n, 10)
  }

  /**
   * `strtol(s + at, &end, radix)` for radix 10 or 16: skip white space, take an
   * optional sign, in base 16 an optional `0x`/`0X` prefix, then read digits;
   * with no digit the value is 0. (`atoi` is the base-10 case.)
   */
  function StrToL(s: string, at: nat, radix: nat): (r: int)
    requires at <= |s|
    requires radix == 10 || radix == 16
    ensures at == |s| ==> r == 0
    ensures (at < |s| && !InClass(s[at], Space) && s[at] != '-' && s[at] != '+' &&
             !InClass(s[at], DigitClass(radix))) ==> r == 0
    ensures '-' !in s[at..] ==> r >= 0
  {
    var j := at + Run(s, at, Space);
    var signed := j < |s| && (s[j] == '-' || s[j] == '+');
    var negative := signed && s[j] == '-';
    var u := if signed then j + 1 else j;
    var prefixed := radix == 16 && u + 1 < |s| && s[u] == '0' && (s[u + 1] == 'x' || s[u + 1] == 'X');
    var d := if prefixed then u + 2 else u;
    var v: int := ScanDigits(s, d, radix, 0);
    assert negative ==> s[at..][j - at] == '-';
    if negative then -v else v
  }

  /** `atoi(s)`. */
  function AtoI(s: string): (r: int)
    ensures |s| == 0 ==> r == 0
    ensures |s| > 0 && !InClass(s[0], Space) && s[0] != '-' && s[0] != '+' && !('0' <= s[0] <= '9') ==> r == 0
    ensures '-' !in s ==> r >= 0
  {
    assert s[0..] == s;
    StrToL(s, 0, 10)
  }

  /** A positive hexadecimal number, followed by a non-digit, reads back through `strtol`. */
  lemma {:induction false} HexReadsBack(n: nat, rest: string)
    requires n >= 1
    requires |rest| > 0 && !InClass(rest[0], HexDigit)
    ensures StrToL(Digits(n, 16) + rest, 0, 16) == n
  {
    var ds := Digits(n, 16);
    var s := ds + rest;
    DigitsNoLeadingZero(n, 16);
    DigitsInClass(n, 16);
    assert s[0] == ds[0];
    assert Run(s, 0, Space) == 0;
    assert forall j :: 0 <= j < |ds| ==> s[j] == ds[j];
    ScanDigitsValue(s, 0, |ds|, 16);
    assert s[|ds|] == rest[0];
    ValueOfPrefix(ds, rest, 0, |ds|, 16);
    DigitsRoundTrip(n, 16);
  }

  /** Decimal digits with no sign and no white space before them read back through `atoi`. */
  lemma {:induction false} AtoIOfDigits(ds: string)
    requires forall i :: 0 <= i < |ds| ==> '0' <= ds[i] <= '9'
    ensures AtoI(ds) == Value(ds, 0, |ds|, 10)
  {
    if |ds| > 0 {
      assert Run(ds, 0, Space) == 0;
    }
    ScanDigitsValue(ds, 0, |ds|, 10);
  }

  /** What `snprintf(buf, size, ...)` leaves in `buf` of a formatted text `s`: at most `size - 1` characters. */
  function Truncate(s: string, size: nat): (r: string)
    requires size >= 1
    ensures |r| <= |s| && |r| <= size - 1 && r == s[..|r|]
    ensures |s| < size <==> r == s
    ensures |s| >= size ==> |r| == size - 1
  {
    if |s| < size then s else s[..size - 1]
  }

  /** The fields of `s` between occurrences of `c`: one more field than there are `c`s. */
  function Fields(s: string, c: char): (r: seq<string>)
    ensures |r| >= 1
  {
    if |s| == 0 then [""]
    else
      var rest := Fields(s[1..], c);
      if s[0] == c then [""] + rest else [[s[0]] + rest[0]] + rest[1..]
  }

  /** Text without `c` is a single field. */
  lemma {:induction false} FieldsOfPlain(a: string, c: char)
    requires c !in a
    ensures Fields(a, c) == [a]
  {
    if |a| > 0 {
      assert c !in a[1..] by {
        forall i | 0 <= i < |a[1..]| ensures a[1..][i] != c {
          assert a[1..][i] == a[i + 1];
        }
      }
      FieldsOfPlain(a[1..], c);
      assert [a[0]] + a[1..] == a;
    }
  }

  /** The first separator ends the first field; the rest is split on its own. */
  lemma {:induction false} FieldsAtFirst(a: string, b: string, c: char)
    requires c !in a
    ensures Fields(a + [c] + b, c) == [a] + Fields(b, c)
  {
    var s := a + [c] + b;
    if |a| == 0 {
      assert s[0] == c;
      assert s[1..] == b;
    } else {
      assert s[0] == a[0];
      assert s[1..] == a[1..] + [c] + b;
      assert c !in a[1..] by {
        forall i | 0 <= i < |a[1..]| ensures a[1..][i] != c {
          assert a[1..][i] == a[i + 1];
        }
      }
      FieldsAtFirst(a[1..], b, c);
      assert [a[0]] + a[1..] == a;
    }
  }
}

=== FILE: framing.dfy ===
/**
 * Splitting a raw HTTP/1.1 response (section 2.1 of RFC 9112) into header
 * and body, reading the status code out of the header (section 4 of RFC 9112),
 * and undoing the chunked transfer coding when the response announces it.
 * A raw response is the text of a C string; `None` is a NULL pointer.
 */
module HttpFraming {
  import opened Wrappers
  import opened CStrings
  import opened Chunked

  /** The empty line that ends the header section. */
  const Separator: string := "\r\n\r\n"

  /** The text whose presence anywhere in the response selects chunked decoding. */
  const ChunkedMarker: string := "Transfer-Encoding: chunked"

  /** The C `uint8_t`. */
  newtype uint8 = x: int | 0 <= x < 256

  /** `struct http_response`: header and body are NULL or owned strings. */
  datatype Response = Response(header: Option<string>, body: Option<string>, status: uint8)

  /** `http_response_extract_header`: the text before the first separator. */
  function ExtractHeader(raw: Option<string>): (r: Option<string>)
    ensures raw.None? ==> r.None?
    ensures raw.Some? ==> (r.Some? <==> Contains(raw.value, Separator))
    ensures r.Some? ==> |r.value| <= |raw.value| && r.value == raw.value[..|r.value|]
    ensures r.Some? ==> OccursAt(raw.value, Separator, |r.value|)
    ensures r.Some? ==> forall k: nat :: k < |r.value| ==> !OccursAt(raw.value, Separator, k)
  {
    match raw
    case None => None
    case Some(s) =>
      match Find(s, Separator)
      case None => None
      case Some(k) => Some(s[..k])
  }

  /**
   * A header `h` followed by the separator is cut back out exactly when no
   * separator starts inside `h`, that is, when `h` followed by the first
   * three bytes of the separator holds none.
   */
  lemma {:induction false} HeaderOfMessage(h: string, b: string)
    ensures ExtractHeader(Some(h + Separator + b)) == Some(h) <==> !Contains(h + "\r\n\r", Separator)
  {
    var s := h + Separator + b;
    var t := h + "\r\n\r";
    assert OccursAt(s, Separator, |h|) by {
      assert s[|h|..|h| + 4] == Separator;
    }
    // An occurrence starting inside `h` reads the same bytes in `s` and in `t`.
    forall k: nat | k < |h|
      ensures OccursAt(s, Separator, k) <==> OccursAt(t, Separator, k)
    {
      if k + 4 <= |t| {
        assert s[k..k + 4] == t[k..k + 4];
      }
    }
    if !Contains(t, Separator) {
      FindIsFirst(s, Separator, |h|);
      assert s[..|h|] == h;
    } else {
      var k: nat :| OccursAt(t, Separator, k);
      assert k < |h|;
      assert OccursAt(s, Separator, k);
    }
  }

  /** `http_response_status_code`'s truncation: the first three characters at most. */
  function Prefix3(t: string): (r: string)
    ensures |r| == if |t| < 3 then |t| else 3
    ensures r == t[..|r|]
  {
    if |t| < 3 then t else t[..3]
  }

  /**
   * `http_response_status_code`: `atoi` of at most three characters between
   * the first and the second space of the whole header; -1 for a NULL header
   * or fewer than two spaces.
   */
  function StatusCode(header: Option<string>): (code: int)
    ensures header.None? ==> code == -1
  {
    match header
    case None => -1
    case Some(h) =>
      match FindChar(h, ' ', 0)
      case None => -1
      case Some(s1) =>
        match FindChar(h, ' ', s1 + 1)
        case None => -1
        case Some(s2) => AtoI(Prefix3(h[s1 + 1..s2]))
  }

  /**
   * Reference definition: split the header on spaces; with fewer than three
   * fields there is no code, otherwise the code is `atoi` of the first three
   * characters of the second field.
   */
  lemma {:induction false} StatusCodeIsSecondField(h: string)
    ensures |Fields(h, ' ')| < 3 ==> StatusCode(Some(h)) == -1
    ensures |Fields(h, ' ')| >= 3 ==> StatusCode(Some(h)) == AtoI(Prefix3(Fields(h, ' ')[1]))
  {
    FindCharSkips(h, ' ', 0);
    match FindChar(h, ' ', 0)
    case None =>
      FieldsOfPlain(h, ' ');
    case Some(s1) =>
      var a := h[..s1];
      var b := h[s1 + 1..];
      assert h == a + [' '] + b;
      FieldsAtFirst(a, b, ' ');
      FieldsAfterSpace(h, s1);
  }

  /** How the text after the first space splits, in terms of the second space. */
  lemma {:induction false} FieldsAfterSpace(h: string, s1: nat)
    requires s1 < |h|
    ensures FindChar(h, ' ', s1 + 1).None? ==> Fields(h[s1 + 1..], ' ') == [h[s1 + 1..]]
    ensures FindChar(h, ' ', s1 + 1).Some? ==>
      |Fields(h[s1 + 1..], ' ')| >= 2 &&
      Fields(h[s1 + 1..], ' ')[0] == h[s1 + 1..FindChar(h, ' ', s1 + 1).value]
  {
    FindCharSkips(h, ' ', s1 + 1);
    match FindChar(h, ' ', s1 + 1)
    case None =>
      FieldsOfPlain(h[s1 + 1..], ' ');
    case Some(s2) =>
      var c := h[s1 + 1..s2];
      var d := h[s2 + 1..];
      assert h[s1 + 1..] == c + [' '] + d;
      FieldsAtFirst(c, d, ' ');
  }

  /** The three digits of a code from 100 to 999. */
  lemma {:induction false} ThreeDigits(code: nat)
    requires 100 <= code <= 999
    ensures |Digits(code, 10)| == 3
    ensures forall i :: 0 <= i < 3 ==> '0' <= Digits(code, 10)[i] <= '9'
  {
    assert Digits(code / 100, 10) == [DigitChar(code / 100)];
    assert Digits(code / 10, 10) == Digits(code / 100, 10) + [DigitChar(code / 10 % 10)];
    DigitsInClass(code, 10);
  }

  /**
   * A status line `version SP code SP reason`, with no space in `version`,
   * yields the code. The reason may hold spaces, and since the spaces are
   * looked for across the whole header, `version` may even span a line break.
   */
  lemma {:induction false} StatusCodeOfStatusLine(version: string, code: nat, reason: string)
    requires ' ' !in version
    requires 100 <= code <= 999
    ensures StatusCode(Some(version + " " + Digits(code, 10) + " " + reason)) == code
  {
    var ds := Digits(code, 10);
    var h := version + " " + ds + " " + reason;
    ThreeDigits(code);
    assert ' ' !in ds by {
      forall i | 0 <= i < |ds| ensures ds[i] != ' ' {
        assert '0' <= ds[i] <= '9';
      }
    }
    assert h == version + [' '] + (ds + [' '] + reason);
    FieldsAtFirst(version, ds + [' '] + reason, ' ');
    FieldsAtFirst(ds, reason, ' ');
    StatusCodeIsSecondField(h);
    assert Prefix3(ds) == ds;
    AtoIOfDigits(ds);
    DigitsRoundTrip(code, 10);
  }

  /**
   * The status line of a successful answer.
   * The literal arrives as a parameter: written inline, it lets the verifier unfold
   * the functions applied to it eagerly, which makes the proof much more expensive.
   */
  lemma {:induction false} StatusCodeOk(line: string)
    requires line == "HTTP/1.1 200 OK"
    ensures StatusCode(Some(line)) == 200
  {
    var ds := Digits(200, 10);
    assert ds == "200" by {
      assert Digits(2, 10) == "2";
      assert Digits(20, 10) == "20";
    }
    assert line == "HTTP/1.1" + " " + ds + " " + "OK";
    StatusCodeOfStatusLine("HTTP/1.1", 200, "OK");
  }

  /**
   * The status line of a missing resource.
   * The literal arrives as a parameter: written inline, it lets the verifier unfold
   * the functions applied to it eagerly, which makes the proof much more expensive.
   */
  lemma {:induction false} StatusCodeNotFound(line: string)
    requires line == "HTTP/1.1 404 Not Found"
    ensures StatusCode(Some(line)) == 404
  {
    var ds := Digits(404, 10);
    assert ds == "404" by {
      assert Digits(4, 10) == "4";
      assert Digits(40, 10) == "40";
    }
    assert line == "HTTP/1.1" + " " + ds + " " + "Not Found";
    StatusCodeOfStatusLine("HTTP/1.1", 404, "Not Found");
  }

  /** Storing an `int` in the `uint8_t` field keeps it modulo 256. */
  function StoredStatus(code: int): (r: uint8)
    ensures 0 <= code < 256 ==> r as int == code
    ensures (r as int - code) % 256 == 0
  {
    (code % 256) as uint8
  }

  /** A 404 is stored as 148, and the error code -1 as 255. */
  lemma {:induction false} StoredStatusExamples()
    ensures StoredStatus(200) == 200
    ensures StoredStatus(404) == 148
    ensures StoredStatus(-1) == 255
  {
  }

  /**
   * What the body extractor needs of a raw response: when it decodes chunks,
   * every declared size fits in what follows the separator.
   */
  ghost predicate BodyDecodable(raw: string)
  {
    match Find(raw, Separator)
    case None => true
    case Some(k) => !Contains(raw, ChunkedMarker) || SizesFit(raw[k + 4..])
  }

  /**
   * `http_response_extract_body`: NULL without a separator; the text after the
   * first separator as it is, unless the marker occurs anywhere in the
   * response, in which case that text is chunk-decoded.
   */
  function ExtractBody(raw: Option<string>): (r: Option<string>)
    requires raw.Some? ==> BodyDecodable(raw.value)
    ensures r.None? <==> raw.None? || !Contains(raw.value, Separator)
    ensures r.Some? && !Contains(raw.value, ChunkedMarker) ==>
      raw.value == ExtractHeader(raw).value + Separator + r.value
    ensures r.Some? && Contains(raw.value, ChunkedMarker) ==>
      |r.value| <= |raw.value| - |ExtractHeader(raw).value| - |Separator|
  {
    match raw
    case None => None
    case Some(s) =>
      match Find(s, Separator)
      case None => None
      case Some(k) =>
        var body := s[k + 4..];
        if Find(s, ChunkedMarker).None? then
          assert s == s[..k] + Separator + body;
          Some(body)
        else Some(Decode(body))
  }

  /** `http_response_extract`: header, body, and the status code read from the header. */
  function Extract(raw: Option<string>): (r: Response)
    requires raw.Some? ==> BodyDecodable(raw.value)
    ensures r.header.None? <==> r.body.None?
    ensures r.header.None? ==> r.status == 255
  {
    var header := ExtractHeader(raw);
    Response(header, ExtractBody(raw), StoredStatus(StatusCode(header)))
  }

  /** A response without the marker: the body is exactly what follows the header. */
  lemma {:induction false} PlainBody(h: string, b: string)
    requires !Contains(h + "\r\n\r", Separator)
    requires !Contains(h + Separator + b, ChunkedMarker)
    ensures BodyDecodable(h + Separator + b)
    ensures ExtractBody(Some(h + Separator + b)) == Some(b)
  {
    HeaderOfMessage(h, b);
    var s := h + Separator + b;
    assert s[|h| + 4..] == b;
  }

  /**
   * A response that announces the chunked coding and frames its body with it:
   * the body is the chunks' payloads, whatever follows the last chunk.
   */
  lemma {:induction false} ChunkedBody(h: string, chunks: seq<string>, trailer: string)
    requires !Contains(h + "\r\n\r", Separator)
    requires Contains(h, ChunkedMarker)
    requires NonEmpty(chunks)
    ensures BodyDecodable(h + Separator + Framed(chunks, LastChunk + trailer))
    ensures ExtractBody(Some(h + Separator + Framed(chunks, LastChunk + trailer))) == Some(Flatten(chunks))
  {
    var b := Framed(chunks, LastChunk + trailer);
    var s := h + Separator + b;
    HeaderOfMessage(h, b);
    assert s[|h| + 4..] == b;
    var i: nat :| OccursAt(h, ChunkedMarker, i);
    assert s[i..i + |ChunkedMarker|] == h[i..i + |ChunkedMarker|];
    assert OccursAt(s, ChunkedMarker, i);
    DecodeEncode(chunks, trailer);
  }

  /**
   * The marker is looked for in the whole response, body included: a plain
   * body that merely mentions it is run through the chunked decoder, and
   * since it does not start with a hexadecimal size, it comes out empty.
   */
  lemma {:induction false} MarkerInBodyEmptiesIt(h: string)
    requires !Contains(h + "\r\n\r", Separator)
    ensures BodyDecodable(h + Separator + ChunkedMarker)
    ensures ExtractBody(Some(h + Separator + ChunkedMarker)) == Some("")
  {
    var b := ChunkedMarker;
    var s := h + Separator + b;
    HeaderOfMessage(h, b);
    assert s[|h| + 4..] == b;
    assert OccursAt(s, ChunkedMarker, |h| + 4);
    assert b[0] == 'T';
    assert SizeLineFrom(b, 0, AtLineBreaks) == SizeLineFrom(b, 0, AtSize);
    assert Run(b, 0, Space) == 0;
    assert ScanDigits(b, 0, 16, 0) == 0;
    assert ReadSizeLine(b) == Stop;
  }

  /** Without a separator there is neither header nor body, and the stored status is that of -1. */
  lemma {:induction false} NoSeparatorNoResponse(raw: string)
    requires !Contains(raw, Separator)
    ensures Extract(Some(raw)) == Response(None, None, 255)
  {
  }
}

=== FILE: fuzzy.dfy ===
/**
 * Fuzzy scoring of list items against a query, and the ranking of the list
 * by that score. The scores of the program are doubles that only ever hold
 * integers, with `-DBL_MAX` for "no match"; here they are an `int` or
 * `NoMatch`.
 */
module Fuzzy {
  import opened Wrappers

  /** A `fuzzy_score` result. `NoMatch` is `-DBL_MAX`, below every score. */
  datatype Score = Points(value: int) | NoMatch

  /** The characters `is_alnum_fast` accepts, listed. */
  const WordChars: string := "0123456789abcdefghijklmnopqrstuvwxyz"

  /** `is_alnum_fast`: a lower-case letter or a digit. */
  function IsAlnumFast(c: char): (r: bool)
    ensures r ==> (c as int) < 128 && c != ' '
    ensures 'A' <= c <= 'Z' ==> !r
  {
    'a' <= c <= 'z' || '0' <= c <= '9'
  }

  /** `is_alnum_fast` accepts exactly the listed characters. */
  lemma {:induction false} IsAlnumFastListed(c: char)
    ensures IsAlnumFast(c) <==> c in WordChars
  {
  }

  /** The fold applied to an item character: 32 is added to everything from 'A' to 'z'. */
  function FoldItem(c: char): (r: int)
    ensures 'A' <= c <= 'Z' ==> r == c as int - 'A' as int + 'a' as int
  {
    if 'A' <= c <= 'z' then c as int + 32 else c as int
  }

  /** The fold applied to a pattern character: upper-case letters become lower-case. */
  function FoldPattern(c: char): (r: int)
    ensures 'A' <= c <= 'Z' ==> r == c as int - 'A' as int + 'a' as int
    ensures (c as int) < 128 ==> r < 128
  {
    if 'A' <= c <= 'Z' then c as int + 32 else c as int
  }

  /** An item character and a pattern character match when their folds agree. */
  predicate Matches(sc: char, pc: char)
  {
    FoldItem(sc) == FoldPattern(pc)
  }

  /** A lower-case item letter folds past ASCII, so no ASCII pattern character matches it. */
  lemma {:induction false} LowercaseNeverMatches(sc: char, pc: char)
    requires 'a' <= sc <= 'z' && (pc as int) < 128
    ensures !Matches(sc, pc)
  {
  }

  /** A match at `i` ends a word: the string ends after it, or the next character is not a word character. */
  predicate EndsWord(s: string, i: nat)
    requires i < |s|
  {
    i + 1 == |s| || !IsAlnumFast(s[i + 1])
  }

  /** How many of the first `n` positions of `s` end a word. */
  function WordEnds(s: string, n: nat): (r: nat)
    requires n <= |s|
    ensures r <= n
  {
    if n == 0 then 0 else WordEnds(s, n - 1) + (if EndsWord(s, n - 1) then 1 else 0)
  }

  /** What a match at `si` earns: 10, 5 per match just before it, 15 more at the end of a word. */
  function MatchPoints(s: string, si: nat, run: nat): (r: int)
    requires si < |s|
    ensures r >= 10 + 5 * run
    ensures EndsWord(s, si) ==> r == 25 + 5 * run
    ensures !EndsWord(s, si) ==> r == 10 + 5 * run
  {
    var boundary := si + 1 == |s| || !IsAlnumFast(s[si + 1]);
    10 + run * 5 + (if boundary then 15 else 0)
  }

  /**
   * The loop of `fuzzy_score` from string position `si` and pattern position
   * `pi`, with `run` matches in a row before `si` and `acc` points so far. A
   * mismatch costs a point and ends the run. The loop gives up as soon as
   * fewer characters are left than pattern characters; the pattern is then
   * unfinished, so the result is `NoMatch`.
   */
  function Scan(s: string, p: string, si: nat, pi: nat, run: nat, acc: int): (r: Score)
    requires si <= |s| && pi <= |p|
    decreases |s| - si
    ensures |p| - pi > |s| - si ==> r == NoMatch
    ensures r.Points? ==> r.value >= acc + 10 * (|p| - pi) - ((|s| - si) - (|p| - pi))
  {
    if si == |s| || pi == |p| then
      if pi < |p| then NoMatch else Points(acc)
    else
      var hit := Matches(s[si], p[pi]);
      var acc' := if hit then acc + MatchPoints(s, si, run) else acc - 1;
      var pi' := if hit then pi + 1 else pi;
      var run' := if hit then run + 1 else 0;
      if |s| - (si + 1) < |p| - pi' then NoMatch
      else Scan(s, p, si + 1, pi', run', acc')
  }

  /**
   * Reference definition: `p[pi..]` can be picked out of `s[si..]`, in order,
   * one matching character at a time.
   */
  predicate Embeds(s: string, p: string, si: nat, pi: nat)
    requires si <= |s| && pi <= |p|
    decreases |s| - si
  {
    pi == |p| ||
    (si < |s| &&
     ((Matches(s[si], p[pi]) && Embeds(s, p, si + 1, pi + 1)) || Embeds(s, p, si + 1, pi)))
  }

  /** An embedding needs at least as many characters as the pattern has left. */
  lemma {:induction false} EmbedsNeedsRoom(s: string, p: string, si: nat, pi: nat)
    requires si <= |s| && pi <= |p|
    ensures Embeds(s, p, si, pi) ==> |p| - pi <= |s| - si
    decreases |s| - si
  {
    if pi < |p| && si < |s| {
      EmbedsNeedsRoom(s, p, si + 1, pi + 1);
      EmbedsNeedsRoom(s, p, si + 1, pi);
    }
  }

  /** What embeds a pattern embeds the pattern without its next character. */
  lemma {:induction false} EmbedsDropsOne(s: string, p: string, si: nat, pi: nat)
    requires si <= |s| && pi < |p|
    requires Embeds(s, p, si, pi)
    ensures Embeds(s, p, si, pi + 1)
    decreases |s| - si
  {
    if pi + 1 < |p| && !(Matches(s[si], p[pi]) && Embeds(s, p, si + 1, pi + 1)) {
      EmbedsDropsOne(s, p, si + 1, pi);
    }
  }

  /** Taking the first match greedily, as the loop does, finds an embedding whenever there is one. */
  lemma {:induction false} ScanFindsEmbedding(s: string, p: string, si: nat, pi: nat, run: nat, acc: int)
    requires si <= |s| && pi <= |p|
    ensures Scan(s, p, si, pi, run, acc).Points? <==> Embeds(s, p, si, pi)
    decreases |s| - si
  {
    if si < |s| && pi < |p| {
      var hit := Matches(s[si], p[pi]);
      var pi' := if hit then pi + 1 else pi;
      if |s| - (si + 1) < |p| - pi' {
        EmbedsNeedsRoom(s, p, si + 1, pi');
      } else {
        ScanFindsEmbedding(s, p, si + 1, pi', if hit then run + 1 else 0,
          if hit then acc + MatchPoints(s, si, run) else acc - 1);
      }
      if hit && Embeds(s, p, si + 1, pi) {
        EmbedsDropsOne(s, p, si + 1, pi);
      }
      if |s| - (si + 1) < |p| - pi' && hit {
        EmbedsNeedsRoom(s, p, si + 1, pi + 1);
      }
    }
  }

  /**
   * `fuzzy_score`: 0 for an empty pattern; otherwise a score exactly when
   * the pattern embeds in the string, so never when it is the longer one.
   */
  function FuzzyScore(s: string, p: string): (r: Score)
    ensures |p| == 0 ==> r == Points(0)
    ensures r.Points? <==> Embeds(s, p, 0, 0)
    ensures |p| > |s| ==> r == NoMatch
    ensures r.Points? ==> r.value >= 11 * |p| - |s|
  {
    if |p| == 0 then Points(0)
    else
      ScanFindsEmbedding(s, p, 0, 0, 0, 0);
      EmbedsNeedsRoom(s, p, 0, 0);
      Scan(s, p, 0, 0, 0, 0)
  }

  /** The least points a run of `n` matches can earn from its run bonuses: 5 * (0 + 1 + ... + (n - 1)). */
  function RunBonus(n: nat): (r: nat)
  {
    if n == 0 then 0 else RunBonus(n - 1) + 5 * (n - 1)
  }

  /** The closed form of `RunBonus`. */
  lemma {:induction false} RunBonusClosed(n: nat)
    ensures 2 * RunBonus(n) == 5 * n * (n - 1)
  {
    if n > 0 {
      RunBonusClosed(n - 1);
      assert 5 * (n - 1) * (n - 2) + 10 * (n - 1) == 5 * n * (n - 1);
    }
  }

  /** A match at `k` with a run of `k` moves the loop on by one, adding what the match earns. */
  lemma {:induction false} ScanMatchStep(s: string, p: string, k: nat, acc: int)
    requires k < |p| <= |s|
    requires Matches(s[k], p[k])
    ensures Scan(s, p, k, k, k, acc) == Scan(s, p, k + 1, k + 1, k + 1, acc + MatchPoints(s, k, k))
  {
  }

  /** The points of a match in terms of the word-end count. */
  lemma {:induction false} MatchPointsCounted(s: string, k: nat)
    requires k < |s|
    ensures MatchPoints(s, k, k) == 10 + 5 * k + 15 * (WordEnds(s, k + 1) - WordEnds(s, k))
  {
  }

  /** What the matches at positions `k` to `n - 1` earn when each extends a run from position 0. */
  function ContiguousPoints(s: string, k: nat, n: nat): (r: int)
    requires k <= n <= |s|
    decreases n - k
  {
    if k == n then 0 else MatchPoints(s, k, k) + ContiguousPoints(s, k + 1, n)
  }

  /** The closed form of `ContiguousPoints`: 10 per match, the run bonuses, 15 per word end. */
  lemma {:induction false} ContiguousPointsClosed(s: string, k: nat, n: nat)
    requires k <= n <= |s|
    ensures ContiguousPoints(s, k, n) == 10 * (n - k) + RunBonus(n) - RunBonus(k) + 15 * (WordEnds(s, n) - WordEnds(s, k))
    decreases n - k
  {
    if k < n {
      ContiguousPointsClosed(s, k + 1, n);
      MatchPointsCounted(s, k);
    }
  }

  /** The loop over a contiguous match starting where the run and the pattern position agree. */
  lemma {:induction false} ScanContiguous(s: string, p: string, k: nat, acc: int)
    requires k <= |p| <= |s|
    requires forall i :: 0 <= i < |p| ==> Matches(s[i], p[i])
    ensures Scan(s, p, k, k, k, acc) == Points(acc + ContiguousPoints(s, k, |p|))
    decreases |p| - k
  {
    if k < |p| {
      ScanMatchStep(s, p, k, acc);
      ScanContiguous(s, p, k + 1, acc + MatchPoints(s, k, k));
    }
  }

  /**
   * A pattern matched character by character from the start of the string
   * scores at least `10 * |p| + 5 * |p| * (|p| - 1) / 2`.
   */
  lemma {:induction false} ContiguousLowerBound(s: string, p: string)
    requires |p| <= |s|
    requires forall i :: 0 <= i < |p| ==> Matches(s[i], p[i])
    ensures FuzzyScore(s, p).Points?
    ensures FuzzyScore(s, p).value >= 10 * |p| + 5 * |p| * (|p| - 1) / 2
  {
    RunBonusClosed(|p|);
    ContiguousPointsClosed(s, 0, |p|);
    if |p| > 0 {
      ScanContiguous(s, p, 0, 0);
    }
  }

  /**
   * The exact score of a pattern matched character by character from the
   * start of the string: 10 per match, the run bonuses, and 15 for every
   * match that ends a word. Nothing after the pattern counts, because the
   * loop stops once the pattern is used up.
   */
  lemma {:induction false} ContiguousScore(s: string, p: string)
    requires |p| <= |s|
    requires forall i :: 0 <= i < |p| ==> Matches(s[i], p[i])
    ensures FuzzyScore(s, p) == Points(10 * |p| + 5 * |p| * (|p| - 1) / 2 + 15 * WordEnds(s, |p|))
  {
    RunBonusClosed(|p|);
    ContiguousPointsClosed(s, 0, |p|);
    if |p| > 0 {
      ScanContiguous(s, p, 0, 0);
    }
  }

  /**
   * "abc" against the item "ABC": three matches, each ending a word, since
   * an upper-case letter is no word character.
   * The literals arrive as parameters: written inline, they let the verifier
   * unfold the functions applied to them eagerly, which makes the proof much
   * more expensive.
   */
  lemma {:induction false} ContiguousExample(s: string, p: string)
    requires s == "ABC" && p == "abc"
    ensures FuzzyScore(s, p) == Points(90)
  {
    assert Matches(s[0], p[0]) && Matches(s[1], p[1]) && Matches(s[2], p[2]);
    assert EndsWord(s, 0) && EndsWord(s, 1) && EndsWord(s, 2);
    assert WordEnds(s, 1) == 1;
    assert WordEnds(s, 2) == 2;
    assert WordEnds(s, 3) == 3;
    ContiguousScore(s, p);
  }

  /**
   * "a" against the item "Axxxx": one match and no word end, since the
   * next character is a word character. Literals as parameters, as above.
   */
  lemma {:induction false} ContiguousExampleMidWord(s: string, p: string)
    requires s == "Axxxx" && p == "a"
    ensures FuzzyScore(s, p) == Points(10)
  {
    assert Matches(s[0], p[0]);
    assert !EndsWord(s, 0);
    assert WordEnds(s, 1) == 0;
    ContiguousScore(s, p);
  }

  /**
   * A mismatch costs a point and ends the run: while there is room to go
   * on, the loop continues with one point less and no run, whatever the
   * run was before.
   */
  lemma {:induction false} ScanMismatchStep(s: string, p: string, si: nat, pi: nat, run: nat, acc: int)
    requires si < |s| && pi < |p|
    requires !Matches(s[si], p[pi])
    ensures |s| - (si + 1) >= |p| - pi ==> Scan(s, p, si, pi, run, acc) == Scan(s, p, si + 1, pi, 0, acc - 1)
    ensures |s| - (si + 1) < |p| - pi ==> Scan(s, p, si, pi, run, acc) == NoMatch
    ensures forall run' :: Scan(s, p, si, pi, run, acc) == Scan(s, p, si, pi, run', acc)
  {
  }

  /**
   * The loop on `s` behind a prefix `x` runs as on `s` alone: what a match
   * earns looks only at the string after it, and the room left is the same.
   * Only the points carried in differ.
   */
  lemma {:induction false} ScanBehindPrefix(x: string, s: string, p: string, i: nat, pi: nat, run: nat, acc: int, d: int)
    requires i <= |s| && pi <= |p|
    ensures Scan(s, p, i, pi, run, acc).Points? ==>
      Scan(x + s, p, |x| + i, pi, run, acc + d) == Points(Scan(s, p, i, pi, run, acc).value + d)
    ensures Scan(s, p, i, pi, run, acc).NoMatch? ==> Scan(x + s, p, |x| + i, pi, run, acc + d) == NoMatch
    decreases |s| - i
  {
    if i < |s| && pi < |p| {
      var xs := x + s;
      assert xs[|x| + i] == s[i];
      assert i + 1 < |s| ==> xs[|x| + i + 1] == s[i + 1];
      assert MatchPoints(xs, |x| + i, run) == MatchPoints(s, i, run);
      var hit := Matches(s[i], p[pi]);
      ScanBehindPrefix(x, s, p, i + 1, if hit then pi + 1 else pi, if hit then run + 1 else 0,
        if hit then acc + MatchPoints(s, i, run) else acc - 1, d);
    }
  }

  /**
   * Characters that cannot match the first pattern character are passed
   * over one point each, with no run; the loop reaches `|x|` unless the
   * string after `x` is too short for the pattern, and then nothing matches.
   */
  lemma {:induction false} ScanSkipsMismatches(x: string, s: string, p: string, j: nat, acc: int)
    requires 1 <= |p| && j <= |x|
    requires forall i :: 0 <= i < |x| ==> !Matches(x[i], p[0])
    ensures |s| >= |p| ==> Scan(x + s, p, j, 0, 0, acc) == Scan(x + s, p, |x|, 0, 0, acc - (|x| - j))
    ensures |s| < |p| ==> Scan(x + s, p, j, 0, 0, acc) == NoMatch
    decreases |x| - j
  {
    if j < |x| {
      assert (x + s)[j] == x[j];
      ScanSkipsMismatches(x, s, p, j + 1, acc - 1);
    }
  }

  /**
   * `fuzzy_score` takes one point for every item character before the
   * first match and is otherwise unchanged: a prefix none of whose
   * characters matches the first pattern character lowers the score by its
   * length, and a string that does not match stays unmatched.
   */
  lemma {:induction false} FuzzyScoreSkipsMismatches(x: string, s: string, p: string)
    requires 1 <= |p|
    requires forall i :: 0 <= i < |x| ==> !Matches(x[i], p[0])
    ensures FuzzyScore(s, p).Points? ==> FuzzyScore(x + s, p) == Points(FuzzyScore(s, p).value - |x|)
    ensures FuzzyScore(s, p).NoMatch? ==> FuzzyScore(x + s, p) == NoMatch
  {
    ScanSkipsMismatches(x, s, p, 0, 0);
    if |s| >= |p| {
      ScanBehindPrefix(x, s, p, 0, 0, 0, 0, -|x|);
      assert 0 - (|x| - 0) == 0 + -|x|;
    }
  }

  /**
   * "ab" against the item "AxB": 10 for the `a`, which is followed by a word
   * character, 1 off for the `x`, and 25 for the `b`, whose run the `x` has
   * reset. Without the reset the `b` would earn 30, and the score 39.
   * Literals as parameters, as above.
   */
  lemma {:induction false} RunResetExample(s: string, p: string)
    requires s == "AxB" && p == "ab"
    ensures FuzzyScore(s, p) == Points(34)
  {
    assert Matches(s[0], p[0]) && !EndsWord(s, 0);
    assert !Matches(s[1], p[1]);
    assert Matches(s[2], p[1]) && EndsWord(s, 2);
    assert MatchPoints(s, 0, 0) == 10;
    assert MatchPoints(s, 2, 0) == 25;
    ScanMismatchStep(s, p, 1, 1, 1, 10);
  }

  /**
   * "ab" against the item "xAB": the `x` costs a point before the
   * contiguous match "AB", which scores 10 + 15 and then 15 + 15.
   * Literals as parameters, as above.
   */
  lemma {:induction false} SkippedPrefixExample(s: string, p: string)
    requires s == "xAB" && p == "ab"
    ensures FuzzyScore(s, p) == Points(54)
  {
    var x, t := "x", "AB";
    assert s == x + t;
    assert !Matches(x[0], p[0]);
    assert Matches(t[0], p[0]) && Matches(t[1], p[1]);
    assert EndsWord(t, 0) && EndsWord(t, 1);
    assert WordEnds(t, 1) == 1;
    assert WordEnds(t, 2) == 2;
    ContiguousScore(t, p);
    FuzzyScoreSkipsMismatches(x, t, p);
  }

  /** No ASCII pattern character matches from `si` on in an all-lower-case string. */
  lemma {:induction false} LowercaseEmbedsNothing(s: string, p: string, si: nat)
    requires si <= |s| && 0 < |p|
    requires forall i :: 0 <= i < |s| ==> 'a' <= s[i] <= 'z'
    requires (p[0] as int) < 128
    ensures !Embeds(s, p, si, 0)
    decreases |s| - si
  {
    if si < |s| {
      LowercaseNeverMatches(s[si], p[0]);
      LowercaseEmbedsNothing(s, p, si + 1);
    }
  }

  /**
   * The fold adds 32 to lower-case item letters too, so an item written in
   * lower case matches no pattern that starts with an ASCII character, its
   * own text included: the matching is not case-insensitive.
   */
  lemma {:induction false} LowercaseItemNeverMatches(s: string, p: string)
    requires 0 < |p|
    requires forall i :: 0 <= i < |s| ==> 'a' <= s[i] <= 'z'
    requires (p[0] as int) < 128
    ensures FuzzyScore(s, p) == NoMatch
  {
    LowercaseEmbedsNothing(s, p, 0);
  }

  /** `a` ranks strictly above `b`: a higher score, or a score against `NoMatch`. */
  predicate Above(a: Score, b: Score)
  {
    match a
    case NoMatch => false
    case Points(x) => b.NoMatch? || x > b.value
  }

  /** `a` may come before `b` in the ranking. */
  predicate AtLeast(a: Score, b: Score)
  {
    !Above(b, a)
  }

  /**
   * `compare_score_desc`: `(sb > sa) - (sb < sa)`, so negative when `a`
   * should come first, positive when `b` should, 0 on a tie.
   */
  function CompareScoreDesc(a: Score, b: Score): (r: int)
    ensures r < 0 <==> Above(a, b)
    ensures r > 0 <==> Above(b, a)
    ensures -1 <= r <= 1
  {
    var greater := if Above(b, a) then 1 else 0;
    var less := if Above(a, b) then 1 else 0;
    greater - less
  }

  /** The comparator orders consistently: it is antisymmetric and its order is total and transitive. */
  lemma {:induction false} CompareIsConsistent(a: Score, b: Score, c: Score)
    ensures CompareScoreDesc(a, b) == -CompareScoreDesc(b, a)
    ensures AtLeast(a, b) || AtLeast(b, a)
    ensures AtLeast(a, b) && AtLeast(b, c) ==> AtLeast(a, c)
  {
  }

  /** `struct listview_item`: an id and a display name, moved together. */
  datatype Item = Item(id: string, name: string)

  /** The rank of an item for a query. */
  function Rank(q: string): Item -> Score
  {
    (x: Item) => FuzzyScore(x.name, q)
  }

  /** Ranks never increase along `xs`. */
  predicate Ranked(xs: seq<Item>, rank: Item -> Score)
  {
    forall i, j :: 0 <= i < j < |xs| ==> AtLeast(rank(xs[i]), rank(xs[j]))
  }

  /** Puts `x` into a ranked list before the first item it ranks at least as high as. */
  function Insert(x: Item, xs: seq<Item>, rank: Item -> Score): (r: seq<Item>)
    requires Ranked(xs, rank)
    ensures Ranked(r, rank)
    ensures multiset(r) == multiset(xs) + multiset{x}
    decreases |xs|
  {
    if |xs| == 0 then [x]
    else if AtLeast(rank(x), rank(xs[0])) then
      assert Ranked([x] + xs, rank) by {
        forall i, j | 0 <= i < j < |[x] + xs|
          ensures AtLeast(rank(([x] + xs)[i]), rank(([x] + xs)[j]))
        {
          if i > 0 {
            assert ([x] + xs)[i] == xs[i - 1];
          }
          assert ([x] + xs)[j] == xs[j - 1];
          CompareIsConsistent(rank(x), rank(xs[0]), rank(xs[j - 1]));
        }
      }
      [x] + xs
    else
      var rest := Insert(x, xs[1..], rank);
      assert xs == [xs[0]] + xs[1..];
      InsertBelowHead(x, xs, rest, rank);
      [xs[0]] + rest
  }

  /** The step of `Insert` that keeps the head: the head ranks at least as high as everything after it. */
  lemma {:induction false} InsertBelowHead(x: Item, xs: seq<Item>, rest: seq<Item>, rank: Item -> Score)
    requires |xs| > 0 && Ranked(xs, rank) && Ranked(rest, rank)
    requires !AtLeast(rank(x), rank(xs[0]))
    requires multiset(rest) == multiset(xs[1..]) + multiset{x}
    ensures Ranked([xs[0]] + rest, rank)
  {
    var r := [xs[0]] + rest;
    forall i, j | 0 <= i < j < |r| ensures AtLeast(rank(r[i]), rank(r[j])) {
      assert r[j] == rest[j - 1];
      if i > 0 {
        assert r[i] == rest[i - 1];
      } else {
        var y := rest[j - 1];
        assert y in multiset(rest);
        if y != x {
          assert y in multiset(xs[1..]);
          var k :| 0 <= k < |xs[1..]| && xs[1..][k] == y;
          assert xs[k + 1] == y;
        }
      }
    }
  }

  /**
   * The order `qsort` leaves behind: a permutation of the items with ranks
   * that never increase. `qsort` is not stable, so nothing is promised about
   * the order of ties, and the model picks one.
   */
  function SortByRank(xs: seq<Item>, rank: Item -> Score): (r: seq<Item>)
    ensures Ranked(r, rank)
    ensures multiset(r) == multiset(xs)
    decreases |xs|
  {
    if |xs| == 0 then []
    else
      assert xs == [xs[0]] + xs[1..];
      Insert(xs[0], SortByRank(xs[1..], rank), rank)
  }

  /**
   * `list_filter`: nothing happens for a NULL array or query or a count that
   * is not positive; otherwise the first `count` items are reordered by
   * their score for the query, best first, ids moving with their names.
   * `items` is `None` for a NULL array.
   */
  function ListFilter(items: Option<seq<Item>>, count: int, query: Option<string>): (r: Option<seq<Item>>)
    requires items.Some? ==> count <= |items.value|
    ensures r.Some? <==> items.Some?
    ensures items.None? || query.None? || count <= 0 ==> r == items
    ensures items.Some? ==> |r.value| == |items.value|
    ensures items.Some? && count > 0 ==> r.value[count..] == items.value[count..]
    ensures items.Some? && query.Some? && count > 0 ==>
      multiset(r.value[..count]) == multiset(items.value[..count]) && Ranked(r.value[..count], Rank(query.value))
  {
    if items.None? || query.None? || count <= 0 then items
    else
      var xs := items.value;
      var sorted := SortByRank(xs[..count], Rank(query.value));
      assert |sorted| == count by {
        assert |multiset(sorted)| == |multiset(xs[..count])|;
      }
      var r := sorted + xs[count..];
      assert r[..count] == sorted;
      assert r[count..] == xs[count..];
      Some(r)
  }

  /** Items that match come before all items that do not. */
  lemma {:induction false} MatchesComeFirst(items: seq<Item>, count: int, q: string, i: int, j: int)
    requires 0 < count <= |items|
    requires 0 <= i < count && 0 <= j < count
    requires FuzzyScore(ListFilter(Some(items), count, Some(q)).value[j].name, q).Points?
    requires FuzzyScore(ListFilter(Some(items), count, Some(q)).value[i].name, q).NoMatch?
    ensures j < i
  {
    var r := ListFilter(Some(items), count, Some(q)).value;
    assert r[..count][i] == r[i] && r[..count][j] == r[j];
    if i < j {
      assert false;
    }
  }
}

=== FILE: prayer.dfy ===
/**
 * The request half of `get_prayer_times`: the argument check, the path
 * `"/<city>/<year>/<month>"` in a 14-byte buffer, and the endpoint handed to
 * `get`. The current year and month arrive as parameters; the JSON parse of
 * the answer arrives as its outcome.
 */
module PrayerTimes {
  import opened Wrappers
  import opened CStrings
  import opened HttpFraming
  import opened HttpClient

  /** `API_VERSION`. */
  const ApiVersion: string := "/v2"

  /** `PRAYER_TIME_ENDPOINT`, a route template whose placeholders are never filled in. */
  const PrayerTimeEndpoint: string := "/sholat/jadwal/:kota/:tahun/:bulan"

  /** The size of the `path` buffer, terminator included. */
  const PathSize: nat := 14

  /** The path as `"/%s/%d/%d"` renders it before it meets the buffer. */
  function FullPath(cityId: string, year: int, month: int): string
  {
    "/" + cityId + "/" + IntToDec(year) + "/" + IntToDec(month)
  }

  /**
   * `snprintf(path, 14, "/%s/%d/%d", ...)`: the rendered path cut to the
   * 13 characters the buffer holds.
   */
  function PathFor(cityId: string, year: int, month: int): (r: string)
    ensures |r| <= PathSize - 1 && |r| <= |FullPath(cityId, year, month)|
    ensures r == FullPath(cityId, year, month)[..|r|]
    ensures |FullPath(cityId, year, month)| <= PathSize - 1 <==> r == FullPath(cityId, year, month)
    ensures |FullPath(cityId, year, month)| >= PathSize ==> |r| == PathSize - 1
  {
    Truncate(FullPath(cityId, year, month), PathSize)
  }

  /**
   * The endpoint: the version, the template as it is, and the path. Its
   * buffer is sized from the three lengths, so nothing is cut.
   */
  function EndpointFor(path: string): (r: string)
    ensures |r| == |ApiVersion| + |PrayerTimeEndpoint| + |path|
    ensures r[..|ApiVersion| + |PrayerTimeEndpoint|] == ApiVersion + PrayerTimeEndpoint
    ensures r[|ApiVersion| + |PrayerTimeEndpoint|..] == path
  {
    var route := ApiVersion + PrayerTimeEndpoint;
    var endpointLen := |ApiVersion| + |PrayerTimeEndpoint| + |path| + 1;
    var r := Truncate(route + path, endpointLen);
    assert (route + path)[..|route|] == route;
    assert (route + path)[|route|..] == path;
    r
  }

  /** The decimal digits of a four-digit year. */
  lemma {:induction false} FourDigits(n: nat)
    requires 1000 <= n <= 9999
    ensures |Digits(n, 10)| == 4
  {
    assert |Digits(n / 1000, 10)| == 1;
    assert |Digits(n / 100, 10)| == 2;
    assert |Digits(n / 10, 10)| == 3;
  }

  /** The decimal digits of a month: one or two, never zero-padded. */
  lemma {:induction false} MonthDigits(n: nat)
    requires 1 <= n <= 12
    ensures |Digits(n, 10)| == if n < 10 then 1 else 2
  {
    if n >= 10 {
      assert |Digits(n / 10, 10)| == 1;
    }
  }

  /**
   * A city id of up to four characters, a four-digit year and a month fit
   * the path buffer, which is what its size was chosen for; a longer id
   * loses the end of the path.
   */
  lemma {:induction false} ShortIdsFit(cityId: string, year: int, month: int)
    requires |cityId| <= 4 && 1000 <= year <= 9999 && 1 <= month <= 12
    ensures PathFor(cityId, year, month) == FullPath(cityId, year, month)
  {
    FourDigits(year);
    MonthDigits(month);
  }

  /**
   * The path for city "1301" in March 2025.
   * The literal arrives as a parameter: written inline, it lets the verifier unfold
   * the functions applied to it eagerly, which makes the proof much more expensive.
   */
  lemma {:induction false} PathExample(path: string)
    requires path == "/1301/2025/3"
    ensures PathFor("1301", 2025, 3) == path
  {
    ShortIdsFit("1301", 2025, 3);
    var year := Digits(2025, 10);
    assert year == "2025" by {
      assert Digits(2, 10) == "2";
      assert Digits(20, 10) == "20";
      assert Digits(202, 10) == "202";
    }
    var month := Digits(3, 10);
    assert month == "3";
    assert FullPath("1301", 2025, 3) == "/" + "1301" + "/" + year + "/" + month;
  }

  /**
   * `get_prayer_times`, request side: -1 before any request when the city id
   * or the destination is NULL; otherwise `get` is asked for the endpoint on
   * `Host`, and -1 follows when it fails or when the answer does not parse.
   * `*dest` is written only on success. `request` is the endpoint handed to
   * `get`, `None` when none was made.
   */
  method GetPrayerTimes(cityId: Option<string>, hasDest: bool, year: int, month: int, conn: Connection, parses: bool)
    returns (code: int, request: Option<string>, written: bool)
    requires WellFormedReads(conn.incoming)
    requires |conn.incoming| > 0 ==> BodyDecodable(CStr(Flatten(conn.incoming)))
    ensures cityId.None? || !hasDest ==> code == -1 && request.None? && !written
    ensures cityId.Some? && hasDest ==> request == Some(EndpointFor(PathFor(cityId.value, year, month)))
    ensures code == 0 || code == -1
    ensures written <==> code == 0
    ensures code == 0 <==>
      cityId.Some? && hasDest && parses &&
      conn.established && conn.written == |request.value| + |Host| + RequestOverhead &&
      |conn.incoming| > 0 && Contains(CStr(Flatten(conn.incoming)), Separator)
  {
    if cityId.None? || !hasDest {
      return -1, None, false;
    }
    var path := PathFor(cityId.value, year, month);
    var endpoint := EndpointFor(path);
    request := Some(endpoint);
    var got, sent, response := Get(Host, endpoint, conn);
    if got < 0 {
      return -1, request, false;
    }
    if !parses {
      return -1, request, false;
    }
    code := 0;
    written := true;
  }
}

=== FILE: uikit.dfy ===
/**
 * The state machines of the terminal list view: the two navigation handlers,
 * the text-entry step, and the viewport offset that keeps the selection on
 * screen. The terminal is not drawn; its height arrives as `visible`, the
 * number of list lines (`tb_height() - 10` in the program).
 */
module UiKit {
  import opened Wrappers

  /** `enum vim_mode`. */
  datatype Mode = Normal | Insert | Search

  /** The termbox event types the handlers distinguish. */
  datatype EventKind = KeyEvent | MouseEvent | OtherEvent

  /**
   * The termbox key codes the handlers name. `NoKey` is the code of a plain
   * character key, whose character arrives in `ch`; `OtherKey` is any other.
   */
  datatype Key =
    | Esc | Enter | CtrlU | CtrlD
    | ArrowUp | ArrowDown | PageUp | PageDown | Home | End
    | WheelUp | WheelDown | MouseLeft
    | Space | Backspace | Backspace2 | Delete
    | NoKey | OtherKey(code: int)

  /** `struct tb_event`, reduced to what the handlers read. */
  datatype Event = Event(kind: EventKind, key: Key, ch: int)

  /** The vim bindings of `uikit.h`. */
  const BindingQuit: int := 'q' as int
  const BindingUp: int := 'k' as int
  const BindingDown: int := 'j' as int
  const BindingTop: int := 'g' as int
  const BindingBottom: int := 'G' as int
  const BindingInsert: int := 'i' as int
  const BindingSearch: int := '/' as int

  /** What a handler returns, and the state behind its pointers afterwards (`None` for NULL). */
  datatype Motion = Motion(code: int, index: Option<int>, mode: Option<Mode>)

  /** A page up: back by `visible`, stopping at the first item. */
  function PageBack(index: int, visible: int): (r: int)
    ensures r >= 0
    ensures index - visible >= 0 ==> r == index - visible
    ensures index - visible < 0 ==> r == 0
  {
    if index - visible < 0 then 0 else index - visible
  }

  /** A page down: on by `visible`, stopping at the last item. */
  function PageOn(count: int, index: int, visible: int): (r: int)
    ensures r <= count - 1
    ensures index + visible < count ==> r == index + visible
    ensures index + visible >= count ==> r == count - 1
  {
    if index + visible >= count then count - 1 else index + visible
  }

  /** The character commands of NORMAL mode; in the other modes they do nothing. */
  function VimChar(count: int, index: int, mode: Mode, ch: int): (r: Motion)
    ensures r.index.Some? && r.mode.Some?
    ensures mode != Normal ==> r == Motion(0, Some(index), Some(mode))
    ensures 0 <= index < count ==> 0 <= r.index.value < count
    ensures r.code in {-1, 0, 2}
    ensures r.code == 2 <==> mode == Normal && (ch == BindingSearch || ch == BindingInsert)
    ensures r.code == -1 <==> mode == Normal && ch == BindingQuit
    ensures r.code != 2 ==> r.mode == Some(mode)
    ensures r.code != 0 ==> r.index == Some(index)
    ensures mode == Normal && 0 <= index < count && ch == BindingUp ==>
      r.index == Some(Clamp(index - 1, 0, count - 1))
    ensures mode == Normal && 0 <= index < count && ch == BindingDown ==>
      r.index == Some(Clamp(index + 1, 0, count - 1))
    ensures mode == Normal && ch == BindingTop ==> r.index == Some(0)
    ensures mode == Normal && ch == BindingBottom ==> r.index == Some(count - 1)
  {
    if mode != Normal then Motion(0, Some(index), Some(mode))
    else if ch == BindingUp then Motion(0, Some(if index > 0 then index - 1 else index), Some(mode))
    else if ch == BindingDown then Motion(0, Some(if index < count - 1 then index + 1 else index), Some(mode))
    else if ch == BindingTop then Motion(0, Some(0), Some(mode))
    else if ch == BindingBottom then Motion(0, Some(count - 1), Some(mode))
    else if ch == BindingSearch then Motion(2, Some(index), Some(Search))
    else if ch == BindingInsert then Motion(2, Some(index), Some(Insert))
    else if ch == BindingQuit then Motion(-1, Some(index), Some(mode))
    else Motion(0, Some(index), Some(mode))
  }

  /** Whether the key falls through to the character commands. */
  predicate IsCharKey(k: Key)
  {
    k != Esc && k != Enter && k != CtrlU && k != CtrlD
  }

  /**
   * `vim_motion`. Only key events count; ESC returns to NORMAL, Enter
   * confirms in any mode, and everything that moves or switches mode does so
   * only in NORMAL.
   */
  function VimMotion(count: int, visible: int, index: Option<int>, mode: Option<Mode>, ev: Event): (r: Motion)
    ensures r.code in {-1, 0, 1, 2}
    ensures index.None? || mode.None? ==> r == Motion(-1, index, mode)
    ensures r.index.Some? <==> index.Some?
    ensures count >= 1 && visible >= 0 && index.Some? && mode.Some? && 0 <= index.value < count ==>
      0 <= r.index.value < count
    ensures index.Some? && mode.Some? && mode.value != Normal ==> r.index == index
    ensures index.Some? && mode.Some? && ev.kind == KeyEvent && ev.key == Esc ==>
      r == Motion(0, index, Some(Normal))
    ensures index.Some? && mode.Some? ==>
      (r.code == 1 <==> ev.kind == KeyEvent && ev.key == Enter)
    ensures index.Some? && mode.Some? ==>
      (r.code == 2 <==>
        (ev.kind == KeyEvent && IsCharKey(ev.key) && mode.value == Normal &&
         (ev.ch == BindingSearch || ev.ch == BindingInsert)))
    ensures r.code == 2 ==> r.mode == Some(if ev.ch == BindingSearch then Search else Insert)
    ensures r.code != 2 && ev.key != Esc ==> r.mode == mode
    ensures r.code == -1 <==>
      index.None? || mode.None? ||
      (ev.kind == KeyEvent && IsCharKey(ev.key) && mode.value == Normal && ev.ch == BindingQuit)
    ensures index.Some? && mode == Some(Normal) && ev.kind == KeyEvent && 0 <= index.value < count && visible >= 0 ==>
      (ev.key == CtrlU ==> r.index == Some(Clamp(index.value - visible, 0, count - 1))) &&
      (ev.key == CtrlD ==> r.index == Some(Clamp(index.value + visible, 0, count - 1)))
    ensures index.Some? && mode == Some(Normal) && ev.kind == KeyEvent && IsCharKey(ev.key) && 0 <= index.value < count ==>
      (ev.ch == BindingUp ==> r.index == Some(Clamp(index.value - 1, 0, count - 1))) &&
      (ev.ch == BindingDown ==> r.index == Some(Clamp(index.value + 1, 0, count - 1))) &&
      (ev.ch == BindingTop ==> r.index == Some(0)) &&
      (ev.ch == BindingBottom ==> r.index == Some(count - 1))
  {
    if index.None? || mode.None? then Motion(-1, index, mode)
    else
      var i := index.value;
      var m := mode.value;
      if ev.kind != KeyEvent then Motion(0, index, mode)
      else
        match ev.key
        case Esc => Motion(0, index, Some(Normal))
        case Enter => Motion(1, index, mode)
        case CtrlU => if m == Normal then Motion(0, Some(PageBack(i, visible)), mode) else Motion(0, index, mode)
        case CtrlD => if m == Normal then Motion(0, Some(PageOn(count, i, visible)), mode) else Motion(0, index, mode)
        case _ => VimChar(count, i, m, ev.ch)
  }

  /**
   * `default_motion`: arrows and the wheel step, PgUp/PgDn page, Home/End
   * jump; Enter or a left click confirms and ESC quits. Key and mouse events
   * go through the same switch; other events do nothing.
   */
  function DefaultMotion(count: int, visible: int, index: Option<int>, ev: Event): (r: Motion)
    ensures r.mode.None?
    ensures r.code in {-1, 0, 1}
    ensures index.None? ==> r.code == -1 && r.index.None?
    ensures r.index.Some? <==> index.Some?
    ensures count >= 1 && visible >= 0 && index.Some? && 0 <= index.value < count ==>
      0 <= r.index.value < count
    ensures index.Some? ==>
      (r.code == 1 <==> (ev.kind == KeyEvent || ev.kind == MouseEvent) && (ev.key == Enter || ev.key == MouseLeft))
    ensures index.Some? ==>
      (r.code == -1 <==> (ev.kind == KeyEvent || ev.kind == MouseEvent) && ev.key == Esc)
    ensures r.code != 0 ==> r.index == index
    ensures ev.kind == OtherEvent ==> r.index == index
    ensures index.Some? && (ev.kind == KeyEvent || ev.kind == MouseEvent) && 0 <= index.value < count ==>
      ((ev.key == ArrowUp || ev.key == WheelUp) ==> r.index == Some(Clamp(index.value - 1, 0, count - 1))) &&
      ((ev.key == ArrowDown || ev.key == WheelDown) ==> r.index == Some(Clamp(index.value + 1, 0, count - 1)))
    ensures index.Some? && (ev.kind == KeyEvent || ev.kind == MouseEvent) && 0 <= index.value < count && visible >= 0 ==>
      (ev.key == PageUp ==> r.index == Some(Clamp(index.value - visible, 0, count - 1))) &&
      (ev.key == PageDown ==> r.index == Some(Clamp(index.value + visible, 0, count - 1)))
    ensures index.Some? && (ev.kind == KeyEvent || ev.kind == MouseEvent) ==>
      (ev.key == Home ==> r.index == Some(0)) &&
      (ev.key == End ==> r.index == Some(count - 1))
  {
    if index.None? then Motion(-1, None, None)
    else
      var i := index.value;
      if ev.kind != KeyEvent && ev.kind != MouseEvent then Motion(0, index, None)
      else
        match ev.key
        case WheelUp => Motion(0, Some(if i > 0 then i - 1 else i), None)
        case ArrowUp => Motion(0, Some(if i > 0 then i - 1 else i), None)
        case WheelDown => Motion(0, Some(if i < count - 1 then i + 1 else i), None)
        case ArrowDown => Motion(0, Some(if i < count - 1 then i + 1 else i), None)
        case PageUp => Motion(0, Some(PageBack(i, visible)), None)
        case PageDown => Motion(0, Some(PageOn(count, i, visible)), None)
        case Home => Motion(0, Some(0), None)
        case End => Motion(0, Some(count - 1), None)
        case MouseLeft => Motion(1, index, None)
        case Enter => Motion(1, index, None)
        case Esc => Motion(-1, index, None)
        case _ => Motion(0, index, None)
  }

  /** The clamp of `x` into `[lo, hi]`, a reference for the scrolling arithmetic of `AdjustOffset`. */
  function Clamp(x: int, lo: int, hi: int): (r: int)
    requires lo <= hi
    ensures lo <= r <= hi
    ensures lo <= x <= hi ==> r == x
  {
    if x < lo then lo else if x > hi then hi else x
  }

  /**
   * A terminal shorter than ten lines makes `visible` negative, and a page
   * up then moves past the end of the list.
   */
  lemma {:induction false} NegativePageLeavesList()
    ensures VimMotion(3, -1, Some(2), Some(Normal), Event(KeyEvent, CtrlU, 0)).index == Some(3)
    ensures DefaultMotion(3, -1, Some(2), Event(KeyEvent, PageUp, 0)).index == Some(3)
  {
  }

  /** The characters the text field accepts from a character key: printable ASCII. */
  predicate Printable(ch: int)
  {
    32 <= ch < 127
  }

  /**
   * `inputtext_handler`: for a key event, Space appends a space and a
   * printable character key appends that character, as long as the text
   * stays below `size - 1` characters; Backspace and Delete drop the last
   * character. Anything else leaves the text alone.
   */
  function InputText(input: string, size: int, ev: Event): (r: string)
    ensures ev.kind != KeyEvent ==> r == input
    ensures |r| > |input| ==> |r| == |input| + 1 && |r| <= size - 1 && r[..|input|] == input
    ensures |r| > |input| ==> r[|input|] == ' ' || Printable(r[|input|] as int)
    ensures |r| < |input| ==> r == input[..|input| - 1]
    ensures ev.kind == KeyEvent && (ev.key == Backspace || ev.key == Backspace2 || ev.key == Delete) ==>
      r == if |input| > 0 then input[..|input| - 1] else input
    ensures ev.kind == KeyEvent && ev.key == Space ==>
      r == if |input| < size - 1 then input + " " else input
  {
    if ev.kind != KeyEvent then input
    else
      match ev.key
      case Space => if |input| < size - 1 then input + " " else input
      case Delete => if |input| > 0 then input[..|input| - 1] else input
      case Backspace2 => if |input| > 0 then input[..|input| - 1] else input
      case Backspace => if |input| > 0 then input[..|input| - 1] else input
      case _ => if |input| < size - 1 && Printable(ev.ch) then input + [ev.ch as char] else input
  }

  /** Typing a character with room to spare and then erasing it gives back the text. */
  lemma {:induction false} TypeThenErase(input: string, size: int, ch: int, erase: Key)
    requires |input| < size - 1 && Printable(ch)
    requires erase == Backspace || erase == Backspace2 || erase == Delete
    ensures InputText(input, size, Event(KeyEvent, NoKey, ch)) == input + [ch as char]
    ensures InputText(InputText(input, size, Event(KeyEvent, NoKey, ch)), size, Event(KeyEvent, erase, 0)) == input
  {
    var typed := InputText(input, size, Event(KeyEvent, NoKey, ch));
    assert typed[..|typed| - 1] == input;
  }

  /**
   * The offset adjustment of `scrollbar`: scroll up to a selection above the
   * viewport, or down just far enough for a selection below it.
   */
  function ScrollOffset(index: int, visible: int, offset: int): (r: int)
    ensures visible >= 1 ==> r <= index <= r + visible - 1
    ensures offset <= index < offset + visible ==> r == offset
    ensures visible >= 1 ==> r == Clamp(offset, index - visible + 1, index)
  {
    var up := if index < offset then index else offset;
    if index >= up + visible then index - visible + 1 else up
  }

  /** Adjusting an offset that already shows the selection changes nothing. */
  lemma {:induction false} ScrollSettles(index: int, visible: int, offset: int)
    requires visible >= 1
    ensures ScrollOffset(index, visible, ScrollOffset(index, visible, offset)) == ScrollOffset(index, visible, offset)
  {
  }
}

=== FILE: wrappers.dfy ===
/**
 * The optional value used wherever the C code hands back a pointer that may be NULL.
 */
module Wrappers {

  /** `None` stands for a NULL pointer, `Some(v)` for a pointer to `v`. */
  datatype Option<+T> = None | Some(value: T)
}
